=== FILE: README.md ===
# Push-button controllers for the Raspberry Pi GPIO, in Dafny

This project models the core of a small Python library that watches push
buttons wired to GPIO pins. The library turns pin levels into five events:
press, release, long press, click and double click. It ships two
generations of the same design:

- `rpicontrols` (the current controller) updates a button on every GPIO edge.
  A background thread wakes a button up again when a timeout that matters to
  it runs out: a long press still to come, or a click held back in case it
  becomes a double click.
- `rpibuttons` (the older controller) polls every button in a main loop. Its
  buttons have no wake-up time, and their default double-click timeout is
  400 ms instead of 500 ms.

Modules, in dependency order:

- `Wrappers`: `Option` and `Result`.
- `Events`: the event kinds, the wiring of a button to its pin, and how an
  update raises an event. An event is raised only when an event loop is
  present.
- `Schedule`: `_schedule_update` and the next wake-up time of the
  scheduled-updates thread.
- `Buttons`: `Button.update` of the current controller, written as a pipeline
  of four stages: sense the level, check long press, check double click,
  check click. This module also holds the facts about one update.
- `Reference`: an independent, case-by-case description of one update, with
  the proof that `Buttons.Update` agrees with it.
- `WakeUps`: why the wake-ups suffice. Every pending long press or click has a
  wake-up set no later than the moment it becomes due.
- `Traces`: successive updates of one button, and the properties that span
  several of them.
- `Lifecycle`: the statuses ready, running, stopping and stopped, with `run`,
  `stop` and the older `stop_async`.
- `Handlers`: the five handler lists, `add_on_*`, `remove_on_*`, and the
  handlers `_raise_event` schedules.
- `Controllers`: the current controller. It covers the registry,
  `make_button`, `delete_button`, `_get_button`, the `_update_button` guard,
  the edge callback, and one pass of the scheduled-updates thread.
- `LegacyButtons`: the older `Button.update`, with the proof that it is the
  current update with the wake-up left out.
- `LegacyControllers`: the older `make_button`, and one turn of the older main
  loop.
- `LegacyTraces`: runs of polls of the older button. These include the two
  event scenarios of the test suite.

Time is a whole number of milliseconds. The Python code uses float seconds
from `time.time()`, so 0.5 s becomes 500. The current time enters every
operation as a parameter, and so does the pin level.

Where the documentation and the code disagree, the model follows the code:

- The comment at rpicontrols/controller.py:293-295 calls a double click two
  clicks "at most" the timeout apart. The docstring at line 470 says the same.
  Line 376 compares with a strict `<`. `Buttons.CheckDoubleClick` uses `<`, and
  `Buttons.UpdateDoubleClickEvent` states the strict bound.
- `make_button` runs "an initial update to initialize the internal state"
  (lines 122-125). That update goes through `_update_button`, which returns at
  once unless the controller is running (lines 205-207). A button made before
  `run` therefore starts released even when its pin reads pressed.
  `Controllers.MakeButton` states both cases.
- The older `Button.update` reads the pin with `gpio_driver.input`
  (rpibuttons/controller.py:199). The older driver interface only declares
  `is_button_pressed` (rpibuttons/gpio_driver.py:17). The model takes the level
  as a parameter.
- Nothing keeps pin ids unique. `_get_button` raises when several buttons share
  a pin, and so does the edge callback. `Controllers.GetButton` models that
  error, and `Controllers.UniquePinsFindAtMostOne` shows that it cannot happen
  with distinct pins.
- The older `make_button` updates the new button whatever the status, because
  it calls `Button.update` directly (rpibuttons/controller.py:62).

## Model

| member | source | states |
|---|---|---|
| Events.LevelMeansPressed | rpicontrols/controller.py:336 | A button wired pressed-when-on is pressed exactly when its pin is high; one wired pressed-when-off is pressed exactly when its pin is low. |
| Events.LevelFor | rpicontrols/controller.py:264-271 | For each wiring and each wanted state there is a pin level that reads as that state. |
| Events.Emit | rpicontrols/controller.py:408-417 | With an event loop the event is appended to those raised so far. Without one, nothing is raised. |
| Events.EmitKeepsOrder | rpicontrols/controller.py:350-400 | Raising an event of a later check after those of earlier checks keeps the checking order. |
| Events.InCheckingOrderCountsOnce | rpicontrols/controller.py:350-400 | Events in checking order contain each kind at most once. |
| Schedule.Next | rpicontrols/controller.py:404-406 | Requesting 0 clears the wake-up. A request on an empty schedule sets it. Otherwise the earlier of the two times wins. |
| Schedule.NextNeverLater | rpicontrols/controller.py:404-406 | A non-zero request never moves a set wake-up later, and the result is one of the two times. |
| Schedule.NextIdempotent | rpicontrols/controller.py:404-406 | Requesting the same time twice is requesting it once. |
| Schedule.NextCommutes | rpicontrols/controller.py:404-406 | Two non-zero requests give the same wake-up in either order. |
| Schedule.ScheduleAllIsEarliest | rpicontrols/controller.py:404-406 | Requesting non-zero times one after the other from an empty schedule keeps the earliest of them. |
| Schedule.ScheduleAllFrom | rpicontrols/controller.py:404-406 | Continuing the requests from the earliest of those done so far gives the earliest of all of them. |
| Schedule.NextWakeUp | rpicontrols/controller.py:87-89 | The thread sleeps until the earliest non-zero wake-up of the buttons, or waits (0) when no wake-up is set. |
| Buttons.NewButton | rpicontrols/controller.py:282-306 | A new button is released, not long-pressed, has nothing scheduled and uses the 500 ms defaults. It starts in the consistent state. |
| Buttons.Update | rpicontrols/controller.py:334-402 | The update fails (IndexError) exactly when the pin reads pressed, the button was already pressed, and no press is recorded. Otherwise it keeps the settings and takes the new level, is long-pressed only while pressed, and raises nothing without an event loop. |
| Buttons.ChecksKeepSettings | rpicontrols/controller.py:360-400 | The three checks keep pin, wiring, timeouts and level, and raise nothing without an event loop. |
| Buttons.UpdateStages | rpicontrols/controller.py:334-402 | A successful update is the four stages one after the other. |
| Buttons.UpdateEventsOrdered | rpicontrols/controller.py:349-402 | An update raises its events in checking order (press or release, long press, double click, click), each kind at most once. |
| Buttons.UpdateEventsExclusive | rpicontrols/controller.py:350-400 | An update never raises both press and release, nor both click and double click. Either click kind consumes all records. |
| Buttons.ChecksExclusive | rpicontrols/controller.py:360-400 | The checks add no press or release and never both click kinds. Either click kind clears the records. |
| Buttons.UpdateEdgeEvents | rpicontrols/controller.py:350-358 | With an event loop, press is raised if and only if the button goes from released to pressed. Release is raised if and only if the opposite happens. |
| Buttons.UpdateLongPressEvent | rpicontrols/controller.py:361-367 | With an event loop, long press is raised if and only if the button becomes long-pressed in this update. |
| Buttons.UpdateDoubleClickEvent | rpicontrols/controller.py:372-380 | With an event loop, a double click is raised if and only if this is a release and the press before last is strictly less than the timeout ago. |
| Buttons.UpdateKeepsWakeUpAhead | rpicontrols/controller.py:343-344 | After an update the wake-up is cleared or not yet passed. |
| Buttons.PressedMeansNoClickPending | rpicontrols/controller.py:386-389 | A consistent pressed button has a press recorded and no click waiting. |
| Buttons.SenseKeepsConsistency | rpicontrols/controller.py:335-358 | Recording the edge keeps presses and releases alternating, with no record after the current time. |
| Buttons.ChecksKeepConsistency | rpicontrols/controller.py:360-400 | Each check keeps the button consistent. |
| Buttons.LongPressKeepsConsistency | rpicontrols/controller.py:360-370 | The long-press check keeps the button consistent, and a pressed button has a press recorded. |
| Buttons.DoubleClickKeepsConsistency | rpicontrols/controller.py:372-383 | The double-click check keeps the button consistent. |
| Buttons.ClickKeepsConsistency | rpicontrols/controller.py:385-400 | The click check keeps the button consistent. |
| Buttons.UpdatePreservesConsistency | rpicontrols/controller.py:334-402 | From a consistent state with no record later than the current time, an update never hits the IndexError and stays consistent. |
| Reference.PressEdgeMatches | rpicontrols/controller.py:340-370 | On a press edge the update does what the reference says: it records the press and raises press. It also raises long press only when the timeout is negative; otherwise it asks for a wake-up at the press time plus the long-press timeout, after forgetting a wake-up that has passed. |
| Reference.HeldMatches | rpicontrols/controller.py:340-370 | While held, the update raises at most the long press, as the reference says. Until the long press fires it asks for a wake-up at the last press plus the long-press timeout. |
| Reference.ReleaseEdgeMatches | rpicontrols/controller.py:340-400 | On a release edge the update does what the reference says: release, then either a double click, a click, or a click held back with a wake-up at the last press plus the double-click timeout. |
| Reference.IdleMatches | rpicontrols/controller.py:340-400 | Released with no edge, the update raises a held-back click only once it is due, and asks for a wake-up for it until then, as the reference says. |
| Reference.UpdateMatchesExpect | rpicontrols/controller.py:334-402 | On every consistent button with no record later than the current time, the update agrees with the reference description on the events and on every field of the button: the level, the long-press flag, both records, and the exact wake-up time. A passed wake-up is forgotten (lines 343-344), and the deadlines of lines 370 and 400 are requested, the earlier one winning. |
| WakeUps.NextBoundedBy | rpicontrols/controller.py:404-406 | Requesting a positive deadline leaves a wake-up no later than the deadline or than the one set. |
| WakeUps.LongPressCheckSchedules | rpicontrols/controller.py:360-370 | For every long-press timeout, after the long-press check a long press still to come has a wake-up set no later than when it becomes due, and a wake-up already set never moves later. |
| WakeUps.ClickCheckSchedules | rpicontrols/controller.py:385-400 | For every double-click timeout, after the click check a click held back has a wake-up set no later than when it becomes due, and a wake-up already set never moves later. |
| WakeUps.PendingLongPressIsScheduled | rpicontrols/controller.py:334-402 | For every timeout, after any update at a positive time of a consistent button with no record later than that time, a long press still to come has a wake-up set no later than its due time. |
| WakeUps.PendingClickIsScheduled | rpicontrols/controller.py:334-402 | For every timeout, after any update at a positive time of a consistent button with no record later than that time, a click held back has a wake-up set no later than its due time. |
| WakeUps.SenseKeepsWakeUp | rpicontrols/controller.py:340-344 | Sensing keeps a wake-up that has not passed. |
| WakeUps.DoubleClickCheckKeepsWakeUp | rpicontrols/controller.py:372-383 | The double-click check schedules nothing. |
| WakeUps.WakeUpNeverPostponed | rpicontrols/controller.py:334-402 | For every timeout, an update at a positive time of a consistent button with no record later than that time never clears a wake-up that has not passed, nor moves it later. |
| WakeUps.ZeroClockLosesWakeUp | rpicontrols/controller.py:360-370 | At time 0 with a zero long-press timeout, a fresh press requests a wake-up at 0, which reads as none: the long press still to come has no wake-up. This is why the lemmas above take a positive time. |
| WakeUps.ClockStepBackFails | rpicontrols/controller.py:339-402 | With the default timeouts, if the clock steps back from 300 to 150 between a release and a press, the button stays consistent but holds a release later than the current time. Held at 700, it raises long press and click and clears the press times while still pressed. The update at 800 then hits the IndexError of line 362. This is why the update lemmas ask that no record lie after the current time. |
| Traces.RunStep | rpicontrols/controller.py:334-402 | A run is the first update followed by the run of the rest, and keeps the button consistent. |
| Traces.CountThen | rpicontrols/controller.py:349-402 | The events of a run count as those of its first update plus those of the rest. |
| Traces.RunPreservesConsistency | rpicontrols/controller.py:334-402 | Updates in time order from a consistent button never fail, and keep it consistent. |
| Traces.HeldStep | rpicontrols/controller.py:360-367 | One update read as pressed keeps the button pressed and raises long press at most once, only when it newly becomes long-pressed. |
| Traces.LongPressOncePerHold | rpicontrols/controller.py:363 | While held, long press is raised at most once, and never again after it was raised for this press. |
| Traces.QuietStep | rpicontrols/controller.py:334-402 | A button at rest read as released raises nothing and stays at rest. |
| Traces.QuietWhileReleased | rpicontrols/controller.py:334-402 | A button at rest stays silent, and at rest, for as long as it reads released. |
| Traces.HeldBackClickStep | rpicontrols/controller.py:385-400 | A click held back is raised once the timeout is over, and nothing changes before. |
| Traces.HeldBackClickFiresOnce | rpicontrols/controller.py:385-400 | While released, a click held back is raised at most once. It is raised once some update comes at or after the end of the timeout. |
| Lifecycle.Start | rpicontrols/controller.py:226-234 | `run` succeeds exactly on a ready controller and makes it running. Any other status is an error. |
| Lifecycle.Stop | rpicontrols/controller.py:152-163 | `stop` leaves a stopped controller stopped and makes a running one stopping. Any other status is an error. |
| Lifecycle.LoopEnded | rpicontrols/controller.py:237-241 | Once the event loop has ended, `run` marks the controller stopped. |
| Lifecycle.StopAsync | rpibuttons/controller.py:69-102 | The older stop has the same checks and errors as `stop`. It ends stopped, going through stopping when it was running. |
| Lifecycle.Step | rpicontrols/controller.py:142-242 | No call and no end of the event loop moves the status backwards. |
| Lifecycle.PerformNeverGoesBack | rpicontrols/controller.py:142-242 | The status only moves forward along any sequence of calls. |
| Lifecycle.RunsAtMostOnce | rpicontrols/controller.py:226-234 | `run` succeeds at most once over a controller's life, and never unless it started ready. |
| Lifecycle.StoppedIsFinal | rpicontrols/controller.py:152-156 | A stopped controller stays stopped, whatever is called. |
| Lifecycle.StoppedOnlyAfterStopping | rpicontrols/controller.py:240-241 | Stopped is reached only from stopping, or from stopped itself. |
| Lifecycle.NeverRunsAgain | rpicontrols/controller.py:142-242 | Once stopping, a controller never becomes ready or running again. |
| Handlers.NoHandlers | rpicontrols/controller.py:288-292 | A new button has no handler for any event. |
| Handlers.With | rpicontrols/controller.py:288-292 | Replacing one event's list leaves the other four unchanged. |
| Handlers.Add | rpicontrols/controller.py:432-472 | `add_on_*` appends the handler to its event's list, even when it is already there, and changes no other list. |
| Handlers.IndexOf | rpicontrols/controller.py:436-438 | Finds the first occurrence of the handler. |
| Handlers.RemoveFirst | rpicontrols/controller.py:436-438 | `list.remove` fails exactly when the handler is absent. Otherwise it drops the first occurrence and keeps the other handlers in their order. |
| Handlers.Remove | rpicontrols/controller.py:436-476 | `remove_on_*` fails (ValueError) exactly when the handler is not in its event's list. Otherwise that list loses the handler's first occurrence and keeps its order, and no other list changes. |
| Handlers.RemoveAfterAdd | rpicontrols/controller.py:432-476 | Removing a handler just added to a list without it gives the handlers back as they were. |
| Handlers.Calls | rpicontrols/controller.py:408-417 | No event raised means no call. One event raised calls exactly its handlers, in the order they were added. Every raised event's handlers are among the calls. |
| Handlers.CallsConcat | rpicontrols/controller.py:408-417 | The calls for events raised one after the other are the calls for each, in that order: every raised event schedules each of its handlers once. |
| Handlers.CalledIffRegistered | rpicontrols/controller.py:408-417 | A handler is called exactly when one of the raised events has it registered. |
| Controllers.NewController | rpicontrols/controller.py:43-52 | A new controller is ready with no button. |
| Controllers.UpdateButton | rpicontrols/controller.py:205-210 | Outside the running status a button is left alone and raises nothing. While running it gets its own update. |
| Controllers.InitialUpdate | rpicontrols/controller.py:122-125 | The initial update of a new button never fails and leaves it consistent. Before `run` it changes nothing. |
| Controllers.MakeButton | rpicontrols/controller.py:99-127 | `make_button` appends one button and leaves the others unchanged. The new button is released before `run`, or follows its pin while running. Identities stay increasing. |
| Controllers.WithPin | rpicontrols/controller.py:183 | Exactly the registered buttons on the pin. |
| Controllers.GetButton | rpicontrols/controller.py:182-188 | `_get_button` fails exactly when several buttons share the pin. It finds nothing exactly when no button has the pin, and otherwise returns a registered button on that pin. |
| Controllers.UniquePinsFindAtMostOne | rpicontrols/controller.py:186-187 | With distinct pins the lookup never raises. |
| Controllers.PositionOf | rpicontrols/controller.py:140 | Finds the first entry with the identity. |
| Controllers.Cut | rpicontrols/controller.py:140 | Removing an entry shifts the ones after it down by one. |
| Controllers.CutKeepsOthers | rpicontrols/controller.py:140 | Removing the entry keeps every other entry and adds none. |
| Controllers.CutKeepsIdsIncreasing | rpicontrols/controller.py:140 | With identities in order, removing an entry keeps them in order and the removed identity is gone. |
| Controllers.DeleteButton | rpicontrols/controller.py:129-140 | `delete_button` fails (ValueError) exactly when the button is not registered. Otherwise it removes one entry and keeps the others. |
| Controllers.DeleteUndoesMake | rpicontrols/controller.py:99-140 | Deleting the button just made gives the registry back as it was. |
| Controllers.DeleteLast | rpicontrols/controller.py:129-140 | Deleting the last entry, appended with the next identity, gives the earlier entries back. |
| Controllers.Replace | rpicontrols/controller.py:200 | Only the entry with that identity gets the new button; identities and length are kept. |
| Controllers.OnGpioEdge | rpicontrols/controller.py:190-207 | The edge callback raises when several buttons share the pin. It ignores an unknown pin and does nothing outside the running status. Otherwise the button found is updated with the level the edge brings (high after a rising edge), with events. A failed update is the callback's error. A successful one replaces that button, raises its events, and leaves every other button unchanged. |
| Controllers.EdgeKeepsSound | rpicontrols/controller.py:190-203 | With distinct pins and consistent buttons, an edge never raises and the buttons stay consistent. |
| Controllers.EdgeTouchesOnlyItsPin | rpicontrols/controller.py:190-203 | An edge changes no button on another pin. |
| Controllers.ScheduledPass | rpicontrols/controller.py:77-84 | One pass updates exactly the buttons due at the current time, with events, and leaves the others unchanged. Afterwards no button is due. The events raised are those of the due buttons, in list order. While running it fails exactly when some due button's update fails, and then with the first such button. Outside the running status nothing changes. |
| Controllers.DueEventsStep | rpicontrols/controller.py:82-84 | The events of a pass grow by a button's update events when that button is due, and not at all otherwise. |
| Controllers.PassSkips | rpicontrols/controller.py:82-84 | Passing over a button that is not due leaves it as it was and raises nothing. |
| Controllers.PassUpdates | rpicontrols/controller.py:82-84 | Updating a due button puts its updated state in its place, leaves it no longer due, and appends its events. |
| Controllers.PassFailsFirst | rpicontrols/controller.py:82-84 | A due button whose update fails, reached by the pass, is the first due button to fail. |
| LegacyButtons.NewButton | rpibuttons/controller.py:155-174 | A new older button is released with no history and the 400/500 ms defaults. |
| LegacyButtons.Update | rpibuttons/controller.py:196-247 | The older update fails (IndexError) exactly when the pin reads pressed, the button was pressed, and no press is recorded. Otherwise it keeps the settings, takes the new level, and raises nothing without an event loop. |
| LegacyButtons.Widen | rpibuttons/controller.py:155-174 | An older button seen as a current one with a given wake-up time. |
| LegacyButtons.Narrow | rpibuttons/controller.py:155-174 | Dropping the wake-up of a current button and widening it again only sets the wake-up. |
| LegacyButtons.SenseAgrees | rpibuttons/controller.py:197-214 | The older sensing stage is the current one without the wake-up. |
| LegacyButtons.ChecksAgree | rpibuttons/controller.py:216-245 | The older checks are the current ones without the wake-ups. |
| LegacyButtons.LongPressAgrees | rpibuttons/controller.py:216-223 | The older long-press check is the current one without the wake-up. |
| LegacyButtons.DoubleClickAgrees | rpibuttons/controller.py:225-233 | The older double-click check is the current one. |
| LegacyButtons.ClickAgrees | rpibuttons/controller.py:235-245 | The older click check is the current one without the wake-up. |
| LegacyButtons.UpdateAgreesWithCurrent | rpibuttons/controller.py:196-247 | From any state, the older and the current update fail together. Otherwise they raise the same events and leave the same state apart from the wake-up. |
| LegacyControllers.MakeButton | rpibuttons/controller.py:49-64 | The older `make_button` appends one button, updated without events whatever the status. It follows its pin, with the press recorded when pressed. |
| LegacyControllers.MakeButtonAgreesWithCurrent | rpibuttons/controller.py:49-64 | Once the current controller runs, the older `make_button` makes the same button as the current one (rpicontrols/controller.py:99-127), apart from the wake-up and the older default double-click timeout of 400 ms. |
| LegacyControllers.PollTurn | rpibuttons/controller.py:126-143 | One loop turn leaves exactly when the status is not running. Otherwise it updates every button in order with events, and raises their events button after button. It fails exactly when some button's poll fails, and then with the first failing one. |
| LegacyControllers.AllEventsStep | rpibuttons/controller.py:139-141 | The events of a turn grow by each button's events in order. |
| LegacyTraces.RunConcat | rpibuttons/controller.py:126-143 | Two runs of polls in a row equal one run of both. |
| LegacyTraces.At | rpibuttons/controller.py:199-200 | A sample of the button's wiring reads as the wanted state. |
| LegacyTraces.HeldPolls | rpibuttons/controller.py:143 | Polls every step while held, as the main loop does every iteration. |
| LegacyTraces.HeldQuietly | rpibuttons/controller.py:216-220 | While held without reaching the long-press timeout (or after the long press), polling changes nothing and raises nothing. |
| LegacyTraces.PollThen | rpibuttons/controller.py:126-143 | A run of polls is its first poll, then the run of the remaining samples from where that poll left the button. |
| LegacyTraces.PressFromRest | rpibuttons/controller.py:206-210 | A press from rest records the time and raises press only. |
| LegacyTraces.LateReleaseOfOnePress | rpibuttons/controller.py:211-245 | A release at least the double-click timeout after the only press raises release and click at once. |
| LegacyTraces.EarlyReleaseOfOnePress | rpibuttons/controller.py:211-245 | A release sooner than that raises only release and keeps the records. |
| LegacyTraces.ClickNotYetDue | rpibuttons/controller.py:236-240 | A click held back is not raised before the timeout. |
| LegacyTraces.ClickDue | rpibuttons/controller.py:236-245 | A click held back is raised at the timeout, and the records are cleared. |
| LegacyTraces.SecondPress | rpibuttons/controller.py:206-210 | A second press within a held-back click raises press only. |
| LegacyTraces.SecondReleaseDoubleClicks | rpibuttons/controller.py:225-233 | The second release, sooner than the timeout after the first press, raises release and double click, and no click. |
| LegacyTraces.LongPressFires | rpibuttons/controller.py:216-223 | Held strictly longer than the timeout, the button raises the long press. |
| LegacyTraces.SecondClickDoubles | rpibuttons/controller.py:206-233 | The second click of a double click raises press, release and double click. |
| LegacyTraces.QuickDoubleClick | rpibuttons/controller.py:196-247 | Two quick clicks from rest raise press, release, press, release and double click, and no click. |
| LegacyTraces.LateReleaseClicks | rpibuttons/controller.py:196-247 | A press released after the double-click timeout gives press, release and click. |
| LegacyTraces.SlowClick | rpibuttons/controller.py:196-247 | A quick click raises its click only at the first poll after the double-click timeout, not with the release. |
| LegacyTraces.PressReleaseClickTest | tests/test_controller.py:64-108 | The first event test: two clicks in a row, each raised once 400 ms have passed since its press. |
| LegacyTraces.LongPressFiresThenClick | rpibuttons/controller.py:216-245 | The long press fires while held, and the late release raises release and click. |
| LegacyTraces.LongPressThenClick | rpibuttons/controller.py:196-247 | A long hold raises press, long press, release and click, in that order. |
| LegacyTraces.LongPressDoubleClickTest | tests/test_controller.py:110-152 | The second event test: press, long press, release and click, then a double click with no click. |

## Left out

- Threads, locks, the asyncio event loop, signal handling and logging are left out. The model is sequential: each operation is one atomic step at a given time.
- The GPIO drivers are parameters or left out: `configure_button`, `unconfigure_button`, `set_edge_callback` and reading a pin. The pin level is passed in by the caller.
- The `make_controller` factories, `start_in_thread`, `run_in_thread` and `stop_on_signals` are left out. They only start threads or hook signals around `run` and `stop`.
- Handler execution is left out. `_call_event_handler`, the futures in `_running_event_handlers` and their clean-up are not modelled: a raised event is a tag, and `Handlers.Calls` lists the handlers it schedules.
- Button names are left out; they only serve logging.
- `bounce_time` and `pull` are left out; they are handed to the driver.
- `stop(wait)` is not modelled beyond the status change: the wait for handlers, the condition-variable notify, and the wait loop.
- The `kills_running_events` flag of `stop_async` is left out. It only decides whether to wait for handlers.
- The older `iteration_sleep` and the sleeping and waiting of the scheduled-updates thread are left out (rpicontrols/controller.py:86-97). The wake-up time they sleep until is `Schedule.NextWakeUp`.
- Controllers.ScheduledPass: on a failing update the model returns only the error. Python has by then already updated the earlier due buttons in place and scheduled their handlers (rpicontrols/controller.py:83-84); those partial changes are not part of the failure result.
- LegacyControllers.PollTurn: on a failing poll the model returns only the error. Python has by then already updated the earlier buttons in place and scheduled their handlers (rpibuttons/controller.py:139-141); those partial changes are not part of the failure result.
- Controllers.ScheduledPass: reads the clock once per pass. The Python code reads `time.time()` once for the pass and again inside each update.
- Buttons.Update: on the IndexError path the model returns the error and drops the partial changes Python makes before it raises.
- Lifecycle.Step: the older controller's `run` returns without marking the controller stopped; `stop_async` does that. This difference is modelled in `Lifecycle.StopAsync` only, not as a separate step function.
- WakeUps.LongPressCheckSchedules: stated for a positive current time, as `time.time()` always is. At time 0 a requested deadline of 0 would read as "no wake-up"; `WakeUps.ZeroClockLosesWakeUp` shows it. The same holds for WakeUps.ClickCheckSchedules, WakeUps.PendingLongPressIsScheduled, WakeUps.PendingClickIsScheduled and WakeUps.WakeUpNeverPostponed, listed below.
- WakeUps.ClickCheckSchedules: stated for a positive current time, for the reason above.
- WakeUps.PendingLongPressIsScheduled: stated for a positive current time, for the reason above.
- WakeUps.PendingClickIsScheduled: stated for a positive current time, for the reason above.
- WakeUps.WakeUpNeverPostponed: stated for a positive current time, for the reason above.
- Reference.UpdateMatchesExpect: stated only when no recorded press or release is later than the current time, that is, when the clock never goes back. The source reads the clock with `time.time()` (rpicontrols/controller.py:339), which can step back. After such a step the update can clear the press times of a pressed button, and a later update then raises the IndexError of line 362. `WakeUps.ClockStepBackFails` shows this sequence.
- Buttons.UpdatePreservesConsistency: stated only when the clock never goes back, for the reason above; a backward step of `time.time()` makes the IndexError reachable, as `WakeUps.ClockStepBackFails` shows.
- Traces.RunPreservesConsistency: stated only for updates in time order, for the reason above; a backward step of `time.time()` makes the IndexError reachable, as `WakeUps.ClockStepBackFails` shows.
- Floating-point time is left out. Timestamps and timeouts are whole milliseconds, so rounding of float seconds is not modelled.

=== FILE: button.dfy ===
/** A button of the current controller (rpicontrols): its state and the update
    step that turns one reading of its pin into press, release, long press,
    double click and click events. */
module Buttons {
  import opened Wrappers
  import opened Events
  import Schedule

  /** Timestamps and timeouts, in milliseconds. */
  type Time = int

  const DefaultDoubleClickTimeout: Time := 500
  const DefaultLongPressTimeout: Time := 500

  datatype Button = Button(
    pinId: int,
    inputType: InputType,
    pressed: bool,
    longPressed: bool,
    doubleClickTimeout: Time,
    longPressTimeout: Time,
    pressTimes: seq<Time>,       // times of the presses not yet consumed by a click
    releaseTimes: seq<Time>,     // times of the releases not yet consumed by a click
    scheduledUpdateTime: Time)   // next wake-up, 0 when nothing is scheduled

  /** `update` indexes the last press time while the button is pressed; with no
      press recorded Python raises an IndexError. */
  datatype UpdateError = PressTimesEmpty

  /** The button after the update and the events raised, in order. */
  datatype Outcome = Outcome(button: Button, events: seq<Event>)

  function Last(s: seq<Time>): Time
    requires |s| > 0
  {
    s[|s| - 1]
  }

  /** A new button: released, no history, nothing scheduled, default timeouts. */
  function NewButton(pinId: int, inputType: InputType): (b: Button)
    ensures b.pinId == pinId && b.inputType == inputType
    ensures !b.pressed && !b.longPressed
    ensures b.doubleClickTimeout == DefaultDoubleClickTimeout && b.longPressTimeout == DefaultLongPressTimeout
    ensures b.scheduledUpdateTime == Schedule.Unscheduled
    ensures Consistent(b)
  {
    Button(pinId, inputType, false, false, DefaultDoubleClickTimeout, DefaultLongPressTimeout, [], [], Schedule.Unscheduled)
  }

  /** Events raised by an update when an event loop is present, none otherwise. */
  function Raised(kinds: seq<Event>, enabled: bool): seq<Event>
  {
    if enabled then kinds else []
  }

  /** A click is waiting: the last press has been released, but it may still
      become the first half of a double click. */
  predicate ClickPending(b: Button)
  {
    |b.pressTimes| > 0 && |b.releaseTimes| > 0 && Last(b.releaseTimes) > Last(b.pressTimes)
  }

  /** Presses and releases alternate, starting with a press: p0 <= r0 <= p1 <= r1 <= ... */
  predicate Alternate(presses: seq<Time>, releases: seq<Time>)
  {
    forall i {:trigger releases[i]} :: 0 <= i < |releases| && i < |presses| ==>
      presses[i] <= releases[i] && (i + 1 < |presses| ==> releases[i] <= presses[i + 1])
  }

  /** The state every button reachable from `NewButton` is in. */
  predicate Consistent(b: Button)
  {
    && (b.longPressed ==> b.pressed)
    && |b.pressTimes| == |b.releaseTimes| + (if b.pressed then 1 else 0)
    && Alternate(b.pressTimes, b.releaseTimes)
  }

  /** No recorded press or release lies after `now`: the clock does not go back. */
  predicate RecordedBy(b: Button, now: Time)
  {
    && (forall i :: 0 <= i < |b.pressTimes| ==> b.pressTimes[i] <= now)
    && (forall i :: 0 <= i < |b.releaseTimes| ==> b.releaseTimes[i] <= now)
  }

  /** The button between the checks of one update, with the events raised so far. */
  datatype Stage = Stage(button: Button, wasPressed: bool, events: seq<Event>)

  /** First part of `update`: the new level, the long-press reset on release,
      the consumption of a passed wake-up, and the press or release edge. */
  function Sense(b: Button, now: Time, level: bool, raiseEvents: bool): (s: Stage)
  {
    var pressed := LevelMeansPressed(b.inputType, level);
    // A wake-up that has passed is consumed by this update.
    var scheduled :=
      if b.scheduledUpdateTime < now then Schedule.Next(b.scheduledUpdateTime, Schedule.Unscheduled)
      else b.scheduledUpdateTime;
    var b1 := b.(pressed := pressed, longPressed := pressed && b.longPressed, scheduledUpdateTime := scheduled);
    if pressed && !b.pressed then
      Stage(b1.(pressTimes := b.pressTimes + [now]), b.pressed, Emit([], Press, raiseEvents))
    else if !pressed && b.pressed then
      Stage(b1.(releaseTimes := b.releaseTimes + [now]), b.pressed, Emit([], Release, raiseEvents))
    else
      Stage(b1, b.pressed, [])
  }

  /** Long press: raised when a press not yet reported as long has lasted
      longer than the timeout, otherwise a wake-up is scheduled for when it
      will have. */
  function CheckLongPress(s: Stage, now: Time, raiseEvents: bool): (s': Stage)
    requires s.button.pressed ==> |s.button.pressTimes| > 0
  {
    var b := s.button;
    if b.pressed && !b.longPressed then
      var lastPress := Last(b.pressTimes);
      if now - lastPress > b.longPressTimeout then
        Stage(b.(longPressed := true), s.wasPressed, Emit(s.events, LongPress, raiseEvents))
      else
        Stage(b.(scheduledUpdateTime := Schedule.Next(b.scheduledUpdateTime, lastPress + b.longPressTimeout)),
              s.wasPressed, s.events)
    else
      s
  }

  /** Whether this update completes a double click: a release whose press
      before last lies less than the double-click timeout ago. */
  predicate DoubleClickDue(s: Stage, now: Time)
  {
    var b := s.button;
    !b.pressed && s.wasPressed && |b.pressTimes| >= 2
    && now - b.pressTimes[|b.pressTimes| - 2] < b.doubleClickTimeout
  }

  /** Double click: raised on a release, consuming the recorded presses and releases. */
  function CheckDoubleClick(s: Stage, now: Time, raiseEvents: bool): (s': Stage)
  {
    if DoubleClickDue(s, now) then
      Stage(s.button.(pressTimes := [], releaseTimes := []), s.wasPressed, Emit(s.events, DoubleClick, raiseEvents))
    else
      s
  }

  /** Click: raised once the last press, already released, can no longer be the
      first half of a double click; until then a wake-up is scheduled for it. */
  function CheckClick(s: Stage, now: Time, raiseEvents: bool): (s': Stage)
  {
    var b := s.button;
    if ClickPending(b) then
      var lastPress := Last(b.pressTimes);
      if now - lastPress >= b.doubleClickTimeout then
        Stage(b.(pressTimes := [], releaseTimes := []), s.wasPressed, Emit(s.events, Click, raiseEvents))
      else
        Stage(b.(scheduledUpdateTime := Schedule.Next(b.scheduledUpdateTime, lastPress + b.doubleClickTimeout)),
              s.wasPressed, s.events)
    else
      s
  }

  /** `Button.update`: reads the pin level sampled at `now`, records the edge,
      and raises the events that became due. `raiseEvents` is false when no
      event loop is given; the state is then updated all the same. */
  function Update(b: Button, now: Time, level: bool, raiseEvents: bool): (r: Result<Outcome, UpdateError>)
    ensures r.Failure? <==> LevelMeansPressed(b.inputType, level) && b.pressed && |b.pressTimes| == 0
    ensures r.Success? ==>
      var b' := r.value.button;
      && SameSettings(b', b)
      && b'.pressed == LevelMeansPressed(b.inputType, level)
      && (b'.longPressed ==> b'.pressed)
    ensures r.Success? && !raiseEvents ==> r.value.events == []
  {
    var s1 := Sense(b, now, level, raiseEvents);
    if s1.button.pressed && |s1.button.pressTimes| == 0 then
      Failure(PressTimesEmpty)
    else
      var s2 := CheckLongPress(s1, now, raiseEvents);
      var s3 := CheckDoubleClick(s2, now, raiseEvents);
      var s4 := CheckClick(s3, now, raiseEvents);
      ChecksKeepSettings(s1, now, raiseEvents);
      Success(Outcome(s4.button, s4.events))
  }

  /** The checks keep the settings and the level, and never leave a button
      long-pressed that is not pressed; without an event loop they raise nothing. */
  lemma ChecksKeepSettings(s1: Stage, now: Time, raiseEvents: bool)
    requires s1.button.pressed ==> |s1.button.pressTimes| > 0
    requires s1.button.longPressed ==> s1.button.pressed
    requires !raiseEvents ==> s1.events == []
    ensures var s4 := CheckClick(CheckDoubleClick(CheckLongPress(s1, now, raiseEvents), now, raiseEvents), now, raiseEvents);
      && SameSettings(s4.button, s1.button) && s4.button.pressed == s1.button.pressed
      && (s4.button.longPressed ==> s4.button.pressed)
      && (!raiseEvents ==> s4.events == [])
  {
    var s2 := CheckLongPress(s1, now, raiseEvents);
    var s3 := CheckDoubleClick(s2, now, raiseEvents);
    assert SameSettings(s2.button, s1.button) && s2.button.pressed == s1.button.pressed;
    assert s3.button.longPressed == s2.button.longPressed;
  }

  /** The stages `Update` goes through when it succeeds. */
  lemma UpdateStages(b: Button, now: Time, level: bool, raiseEvents: bool)
      returns (s1: Stage, s2: Stage, s3: Stage, s4: Stage)
    requires Update(b, now, level, raiseEvents).Success?
    ensures s1 == Sense(b, now, level, raiseEvents)
    ensures s1.button.pressed ==> |s1.button.pressTimes| > 0
    ensures s2 == CheckLongPress(s1, now, raiseEvents)
    ensures s3 == CheckDoubleClick(s2, now, raiseEvents)
    ensures s4 == CheckClick(s3, now, raiseEvents)
    ensures Update(b, now, level, raiseEvents).value == Outcome(s4.button, s4.events)
  {
    s1 := Sense(b, now, level, raiseEvents);
    s2 := CheckLongPress(s1, now, raiseEvents);
    s3 := CheckDoubleClick(s2, now, raiseEvents);
    s4 := CheckClick(s3, now, raiseEvents);
  }

  /** The events of one update come in checking order, so each kind at most once. */
  lemma UpdateEventsOrdered(b: Button, now: Time, level: bool, raiseEvents: bool)
    requires Update(b, now, level, raiseEvents).Success?
    ensures InCheckingOrder(Update(b, now, level, raiseEvents).value.events)
  {
    var s1, s2, s3, s4 := UpdateStages(b, now, level, raiseEvents);
    assert forall i :: 0 <= i < |s1.events| ==> Rank(s1.events[i]) < 2;
    if s2.events != s1.events {
      EmitKeepsOrder(s1.events, LongPress, raiseEvents);
    }
    if s3.events != s2.events {
      EmitKeepsOrder(s2.events, DoubleClick, raiseEvents);
    }
    if s4.events != s3.events {
      EmitKeepsOrder(s3.events, Click, raiseEvents);
    }
  }

  /** One update raises at most one of press and release, never both a click
      and a double click, and either of the last two consumes the recorded
      presses and releases. */
  lemma UpdateEventsExclusive(b: Button, now: Time, level: bool, raiseEvents: bool)
    requires Update(b, now, level, raiseEvents).Success?
    ensures var o := Update(b, now, level, raiseEvents).value;
      && !(Press in o.events && Release in o.events)
      && !(Click in o.events && DoubleClick in o.events)
      && (DoubleClick in o.events || Click in o.events ==> o.button.pressTimes == [] && o.button.releaseTimes == [])
  {
    var s1, s2, s3, s4 := UpdateStages(b, now, level, raiseEvents);
    assert s1.events == [] || s1.events == [Press] || s1.events == [Release];
    ChecksExclusive(s1, now, raiseEvents);
  }

  /** The checks add neither press nor release, and never both a click and a
      double click; either of these consumes the recorded presses and releases. */
  lemma ChecksExclusive(s1: Stage, now: Time, raiseEvents: bool)
    requires s1.button.pressed ==> |s1.button.pressTimes| > 0
    requires DoubleClick !in s1.events && Click !in s1.events
    ensures var s4 := CheckClick(CheckDoubleClick(CheckLongPress(s1, now, raiseEvents), now, raiseEvents), now, raiseEvents);
      && (Press in s4.events <==> Press in s1.events)
      && (Release in s4.events <==> Release in s1.events)
      && !(Click in s4.events && DoubleClick in s4.events)
      && (DoubleClick in s4.events || Click in s4.events ==> s4.button.pressTimes == [] && s4.button.releaseTimes == [])
  {
    var s2 := CheckLongPress(s1, now, raiseEvents);
    var s3 := CheckDoubleClick(s2, now, raiseEvents);
    var s4 := CheckClick(s3, now, raiseEvents);
    assert s2.events == s1.events || s2.events == s1.events + [LongPress];
    if DoubleClickDue(s2, now) {
      assert !ClickPending(s3.button);
      assert s4 == s3;
      assert s3.events == s2.events || s3.events == s2.events + [DoubleClick];
    } else {
      assert s3 == s2;
      assert s4.events == s3.events || s4.events == s3.events + [Click];
      if Click in s4.events {
        assert s4.events != s3.events;
      }
    }
  }

  /** With an event loop, press and release are raised exactly on the matching edge. */
  lemma UpdateEdgeEvents(b: Button, now: Time, level: bool, raiseEvents: bool)
    requires Update(b, now, level, raiseEvents).Success?
    requires raiseEvents
    ensures var o := Update(b, now, level, raiseEvents).value;
      && (Press in o.events <==> !b.pressed && o.button.pressed)
      && (Release in o.events <==> b.pressed && !o.button.pressed)
  {
    var s1, s2, s3, s4 := UpdateStages(b, now, level, raiseEvents);
    assert s2.events == s1.events || s2.events == s1.events + [LongPress];
    assert s3.events == s2.events || s3.events == s2.events + [DoubleClick];
    assert s4.events == s3.events || s4.events == s3.events + [Click];
    assert Press in s4.events <==> Press in s1.events;
    assert Release in s4.events <==> Release in s1.events;
  }

  /** With an event loop, long press is raised exactly when the button becomes
      long-pressed: never twice while it stays pressed. */
  lemma UpdateLongPressEvent(b: Button, now: Time, level: bool, raiseEvents: bool)
    requires Update(b, now, level, raiseEvents).Success?
    requires raiseEvents
    ensures var o := Update(b, now, level, raiseEvents).value;
      LongPress in o.events <==> o.button.longPressed && !b.longPressed
  {
    var s1, s2, s3, s4 := UpdateStages(b, now, level, raiseEvents);
    assert LongPress !in s1.events;
    assert LongPress in s2.events <==> s2.button.longPressed && !s1.button.longPressed;
    assert s3.events == s2.events || s3.events == s2.events + [DoubleClick];
    assert s4.events == s3.events || s4.events == s3.events + [Click];
    assert LongPress in s4.events <==> LongPress in s2.events;
    assert s4.button.longPressed == s2.button.longPressed;
  }

  /** With an event loop, double click is raised exactly on a release whose press
      before last lies less than the double-click timeout ago. */
  lemma UpdateDoubleClickEvent(b: Button, now: Time, level: bool, raiseEvents: bool)
    requires Update(b, now, level, raiseEvents).Success?
    requires raiseEvents
    ensures var o := Update(b, now, level, raiseEvents).value;
      DoubleClick in o.events <==>
        b.pressed && !o.button.pressed && |b.pressTimes| >= 2
        && now - b.pressTimes[|b.pressTimes| - 2] < b.doubleClickTimeout
  {
    var s1, s2, s3, s4 := UpdateStages(b, now, level, raiseEvents);
    assert DoubleClick !in s2.events;
    assert DoubleClick in s3.events <==> DoubleClickDue(s2, now);
    assert s4.events == s3.events || s4.events == s3.events + [Click];
    assert DoubleClick in s4.events <==> DoubleClick in s3.events;
    assert DoubleClickDue(s2, now) <==>
      b.pressed && !s1.button.pressed && |b.pressTimes| >= 2
      && now - b.pressTimes[|b.pressTimes| - 2] < b.doubleClickTimeout
    by {
      if !s1.button.pressed {
        assert s2 == s1;
        assert s1.button.pressTimes == b.pressTimes;
      }
    }
  }

  /** After an update the wake-up is either cleared or not yet passed, so the
      scheduled-updates thread never sees the same button due twice at `now`. */
  lemma UpdateKeepsWakeUpAhead(b: Button, now: Time, level: bool, raiseEvents: bool)
    requires Update(b, now, level, raiseEvents).Success?
    ensures var t := Update(b, now, level, raiseEvents).value.button.scheduledUpdateTime;
      t == Schedule.Unscheduled || t >= now
  {
    var s1, s2, s3, s4 := UpdateStages(b, now, level, raiseEvents);
  }

  /** While pressed in a consistent state the last press follows the last
      release, so no click can be pending. */
  lemma PressedMeansNoClickPending(b: Button)
    requires Consistent(b) && b.pressed
    ensures |b.pressTimes| > 0
    ensures !ClickPending(b)
  {
    if |b.releaseTimes| > 0 {
      var i := |b.releaseTimes| - 1;
      assert b.releaseTimes[i] <= b.pressTimes[i + 1];
    }
  }

  /** Two button states share the pin, the input type and the timeouts. */
  predicate SameSettings(b: Button, c: Button)
  {
    && b.pinId == c.pinId && b.inputType == c.inputType
    && b.doubleClickTimeout == c.doubleClickTimeout && b.longPressTimeout == c.longPressTimeout
  }

  /** The consistency invariant and the clock bound survive the edge recording. */
  lemma SenseKeepsConsistency(b: Button, now: Time, level: bool, raiseEvents: bool)
    requires Consistent(b) && RecordedBy(b, now)
    ensures Consistent(Sense(b, now, level, raiseEvents).button)
    ensures RecordedBy(Sense(b, now, level, raiseEvents).button, now)
  {
    var b1 := Sense(b, now, level, raiseEvents).button;
    var p, r := b1.pressTimes, b1.releaseTimes;
    if b1.pressed && !b.pressed {
      assert p == b.pressTimes + [now] && r == b.releaseTimes;
      forall i | 0 <= i < |r| && i + 1 < |p|
        ensures r[i] <= p[i + 1]
      {
        if i + 1 < |b.pressTimes| {
          assert p[i + 1] == b.pressTimes[i + 1];
        } else {
          assert p[i + 1] == now;
        }
      }
    } else if !b1.pressed && b.pressed {
      assert p == b.pressTimes && r == b.releaseTimes + [now];
      forall i | 0 <= i < |r| && i < |p|
        ensures p[i] <= r[i]
      {
        if i < |b.releaseTimes| {
          assert r[i] == b.releaseTimes[i];
        } else {
          assert r[i] == now;
        }
      }
    }
  }

  /** The three checks of an update keep a consistent state consistent. */
  lemma ChecksKeepConsistency(s1: Stage, now: Time, raiseEvents: bool)
    requires Consistent(s1.button) && RecordedBy(s1.button, now)
    ensures s1.button.pressed ==> |s1.button.pressTimes| > 0
    ensures var s2 := CheckLongPress(s1, now, raiseEvents);
      && Consistent(s2.button) && RecordedBy(s2.button, now)
      && var s3 := CheckDoubleClick(s2, now, raiseEvents);
      && Consistent(s3.button) && RecordedBy(s3.button, now)
      && var s4 := CheckClick(s3, now, raiseEvents);
      && Consistent(s4.button) && RecordedBy(s4.button, now)
  {
    var s2 := CheckLongPress(s1, now, raiseEvents);
    LongPressKeepsConsistency(s1, now, raiseEvents);
    var s3 := CheckDoubleClick(s2, now, raiseEvents);
    DoubleClickKeepsConsistency(s2, now, raiseEvents);
    ClickKeepsConsistency(s3, now, raiseEvents);
  }

  /** The long-press check only sets the flag, on a pressed button, and the wake-up. */
  lemma LongPressKeepsConsistency(s1: Stage, now: Time, raiseEvents: bool)
    requires Consistent(s1.button) && RecordedBy(s1.button, now)
    ensures s1.button.pressed ==> |s1.button.pressTimes| > 0
    ensures var s2 := CheckLongPress(s1, now, raiseEvents);
      Consistent(s2.button) && RecordedBy(s2.button, now)
  {
    var s2 := CheckLongPress(s1, now, raiseEvents);
    assert s2.button.pressTimes == s1.button.pressTimes && s2.button.releaseTimes == s1.button.releaseTimes;
  }

  /** The double-click check empties both records of a released button, or
      changes nothing. */
  lemma DoubleClickKeepsConsistency(s2: Stage, now: Time, raiseEvents: bool)
    requires Consistent(s2.button) && RecordedBy(s2.button, now)
    ensures var s3 := CheckDoubleClick(s2, now, raiseEvents);
      Consistent(s3.button) && RecordedBy(s3.button, now)
  {
  }

  /** The click check empties both records of a released button, or only sets
      the wake-up. */
  lemma ClickKeepsConsistency(s3: Stage, now: Time, raiseEvents: bool)
    requires Consistent(s3.button) && RecordedBy(s3.button, now)
    ensures var s4 := CheckClick(s3, now, raiseEvents);
      Consistent(s4.button) && RecordedBy(s4.button, now)
  {
    if s3.button.pressed {
      PressedMeansNoClickPending(s3.button);
    }
  }

  /** From a consistent state whose records do not lie after `now`, an update
      never hits the empty press list and leads to a consistent state again:
      presses and releases keep alternating, and being pressed means at least
      one press is recorded. */
  lemma UpdatePreservesConsistency(b: Button, now: Time, level: bool, raiseEvents: bool)
    requires Consistent(b) && RecordedBy(b, now)
    ensures Update(b, now, level, raiseEvents).Success?
    ensures Consistent(Update(b, now, level, raiseEvents).value.button)
    ensures RecordedBy(Update(b, now, level, raiseEvents).value.button, now)
  {
    var s1 := Sense(b, now, level, raiseEvents);
    SenseKeepsConsistency(b, now, level, raiseEvents);
    ChecksKeepConsistency(s1, now, raiseEvents);
    var s1', s2, s3, s4 := UpdateStages(b, now, level, raiseEvents);
  }
}

=== FILE: controller.dfy ===
/** The current controller (rpicontrols): the registry of buttons, the guard
    that lets updates through only while running, the GPIO edge callback and
    the pass of the scheduled-updates thread. */
module Controllers {
  import opened Wrappers
  import opened Events
  import opened Lifecycle
  import Buttons
  import Schedule

  type Time = int

  /** A registered button. `id` stands for the identity of the Python object:
      `in` and `list.remove` on the button list compare buttons by identity. */
  datatype Entry = Entry(id: nat, button: Buttons.Button)

  /** The controller's status and its buttons in registration order;
      `nextId` is the identity the next button will get. */
  datatype Controller = Controller(status: Status, entries: seq<Entry>, nextId: nat)

  datatype ControllerError =
    | SeveralButtons(pinId: int)             // `_get_button` found more than one button
    | NotRegistered(id: nat)                 // `delete_button` of a button not in the list
    | UpdateFailed(error: Buttons.UpdateError)

  /** The new state of the controller and the events raised on the way. */
  datatype Reaction = Reaction(controller: Controller, events: seq<Event>)

  /** Identities are handed out in increasing order and never reused, so the
      entries are sorted by identity and each is below `nextId`. */
  predicate IdsIncreasing(c: Controller)
  {
    && (forall i, j :: 0 <= i < j < |c.entries| ==> c.entries[i].id < c.entries[j].id)
    && (forall i :: 0 <= i < |c.entries| ==> c.entries[i].id < c.nextId)
  }

  predicate Registered(c: Controller, id: nat)
  {
    exists i :: 0 <= i < |c.entries| && c.entries[i].id == id
  }

  function NewController(): (c: Controller)
    ensures c.status == Ready && c.entries == []
    ensures IdsIncreasing(c)
  {
    Controller(Ready, [], 0)
  }

  /** `_update_button`: outside the running status the button is left alone
      and raises nothing; while running it is the button's own update. */
  function UpdateButton(status: Status, b: Buttons.Button, now: Time, level: bool, raiseEvents: bool)
    : (r: Result<Buttons.Outcome, Buttons.UpdateError>)
    ensures status != Running ==> r == Success(Buttons.Outcome(b, []))
    ensures status == Running ==> r == Buttons.Update(b, now, level, raiseEvents)
    ensures r.Success? && r.value.events != [] ==> status == Running && raiseEvents
  {
    if status != Running then Success(Buttons.Outcome(b, []))
    else Buttons.Update(b, now, level, raiseEvents)
  }

  /** The initial update of a new button, without events. It cannot fail: a
      new button is released, so it never reads a missing press time. */
  function InitialUpdate(status: Status, b: Buttons.Button, now: Time, level: bool): (r: Buttons.Button)
    requires b == Buttons.NewButton(b.pinId, b.inputType)
    ensures r.pinId == b.pinId && r.inputType == b.inputType
    ensures status != Running ==> r == b
    ensures status == Running ==> r.pressed == LevelMeansPressed(b.inputType, level)
    ensures Buttons.Consistent(r)
  {
    Buttons.UpdatePreservesConsistency(b, now, level, false);
    UpdateButton(status, b, now, level, false).value.button
  }

  /** `make_button`: a new button, updated once without events, appended to
      the list. It never fails. Before `run` the guard of `_update_button`
      makes the initial update a no-op, so the button starts released even
      when its pin says otherwise. */
  function MakeButton(c: Controller, pinId: int, inputType: InputType, level: bool, now: Time): (r: Controller)
    ensures r.status == c.status && r.nextId == c.nextId + 1
    ensures |r.entries| == |c.entries| + 1 && r.entries[..|c.entries|] == c.entries
    ensures var e := r.entries[|c.entries|];
      && e.id == c.nextId && e.button.pinId == pinId && e.button.inputType == inputType
      && (c.status != Running ==> e.button == Buttons.NewButton(pinId, inputType))
      && (c.status == Running ==> e.button.pressed == LevelMeansPressed(inputType, level))
      && Buttons.Consistent(e.button)
    ensures IdsIncreasing(c) ==> IdsIncreasing(r)
  {
    var b := InitialUpdate(c.status, Buttons.NewButton(pinId, inputType), now, level);
    c.(entries := c.entries + [Entry(c.nextId, b)], nextId := c.nextId + 1)
  }

  /** The entries of the buttons wired to `pinId`, in order. */
  function WithPin(entries: seq<Entry>, pinId: int): (r: seq<Entry>)
    ensures forall e :: e in r <==> e in entries && e.button.pinId == pinId
    ensures |r| <= |entries|
    decreases |entries|
  {
    if |entries| == 0 then []
    else if entries[0].button.pinId == pinId then [entries[0]] + WithPin(entries[1..], pinId)
    else WithPin(entries[1..], pinId)
  }

  /** `_get_button`: no button for the pin, the only one, or an error when
      several buttons share the pin. */
  function GetButton(c: Controller, pinId: int): (r: Result<Option<Entry>, ControllerError>)
    ensures r.Failure? <==> |WithPin(c.entries, pinId)| > 1
    ensures r.Failure? ==> r.error == SeveralButtons(pinId)
    ensures r == Success(None) <==> forall e :: e in c.entries ==> e.button.pinId != pinId
    ensures r.Success? && r.value.Some? ==>
      r.value.value in c.entries && r.value.value.button.pinId == pinId
  {
    var found := WithPin(c.entries, pinId);
    assert |found| > 0 ==> found[0] in found;
    if |found| == 0 then Success(None)
    else if |found| > 1 then Failure(SeveralButtons(pinId))
    else
      assert found[0] in found;
      Success(Some(found[0]))
  }

  /** No two buttons share a pin. Nothing in the controller enforces this. */
  predicate PinsUnique(entries: seq<Entry>)
  {
    forall i, j :: 0 <= i < j < |entries| ==> entries[i].button.pinId != entries[j].button.pinId
  }

  /** With distinct pins, looking a pin up never fails. */
  lemma {:induction false} UniquePinsFindAtMostOne(entries: seq<Entry>, pinId: int)
    requires PinsUnique(entries)
    ensures |WithPin(entries, pinId)| <= 1
    decreases |entries|
  {
    if |entries| > 0 {
      var rest := entries[1..];
      assert PinsUnique(rest) by {
        forall i, j | 0 <= i < j < |rest|
          ensures rest[i].button.pinId != rest[j].button.pinId
        {
          assert rest[i] == entries[i + 1] && rest[j] == entries[j + 1];
        }
      }
      UniquePinsFindAtMostOne(rest, pinId);
      if entries[0].button.pinId == pinId {
        forall e | e in rest
          ensures e.button.pinId != pinId
        {
          var j :| 0 <= j < |rest| && rest[j] == e;
          assert entries[j + 1] == e;
        }
        NoneWithPin(rest, pinId);
      }
    }
  }

  lemma {:induction false} NoneWithPin(entries: seq<Entry>, pinId: int)
    requires forall e :: e in entries ==> e.button.pinId != pinId
    ensures WithPin(entries, pinId) == []
    decreases |entries|
  {
    if |entries| > 0 {
      assert entries[0] in entries;
      NoneWithPin(entries[1..], pinId);
    }
  }

  /** Position of the entry with identity `id`. */
  function PositionOf(entries: seq<Entry>, id: nat): (i: nat)
    requires exists k :: 0 <= k < |entries| && entries[k].id == id
    ensures i < |entries| && entries[i].id == id
    ensures forall k :: 0 <= k < i ==> entries[k].id != id
    decreases |entries|
  {
    if entries[0].id == id then 0
    else
      var k :| 0 <= k < |entries| && entries[k].id == id;
      assert entries[1..][k - 1].id == id;
      1 + PositionOf(entries[1..], id)
  }

  /** The entries without the one at position `i`. */
  function Cut(entries: seq<Entry>, i: nat): (r: seq<Entry>)
    requires i < |entries|
    ensures |r| == |entries| - 1
    ensures forall k :: 0 <= k < |r| ==> r[k] == entries[if k < i then k else k + 1]
  {
    entries[..i] + entries[i + 1..]
  }

  /** Cutting out the entry of identity `id` keeps every other entry and adds none. */
  lemma CutKeepsOthers(entries: seq<Entry>, i: nat, id: nat)
    requires i < |entries| && entries[i].id == id
    ensures forall e :: e in entries && e.id != id ==> e in Cut(entries, i)
    ensures forall e :: e in Cut(entries, i) ==> e in entries
  {
    var r := Cut(entries, i);
    forall e | e in entries && e.id != id
      ensures e in r
    {
      var j :| 0 <= j < |entries| && entries[j] == e;
      if j < i {
        assert r[j] == e;
      } else {
        assert r[j - 1] == e;
      }
    }
  }

  /** Cutting an entry out of a registry sorted by identity keeps it sorted,
      and the identity cut out is no longer there. */
  lemma CutKeepsIdsIncreasing(c: Controller, i: nat)
    requires IdsIncreasing(c) && i < |c.entries|
    ensures IdsIncreasing(c.(entries := Cut(c.entries, i)))
    ensures !Registered(c.(entries := Cut(c.entries, i)), c.entries[i].id)
  {
    var r := Cut(c.entries, i);
    forall k | 0 <= k < |r|
      ensures r[k].id != c.entries[i].id
    {
      if k < i {
        assert r[k].id < c.entries[i].id;
      } else {
        assert r[k].id > c.entries[i].id;
      }
    }
  }

  /** `delete_button`: the button leaves the list, in which the others keep
      their order; a button that is not registered is a ValueError. */
  function DeleteButton(c: Controller, id: nat): (r: Result<Controller, ControllerError>)
    ensures r.Failure? <==> !Registered(c, id)
    ensures r.Failure? ==> r.error == NotRegistered(id)
    ensures r.Success? ==>
      && r.value.status == c.status && r.value.nextId == c.nextId
      && |r.value.entries| == |c.entries| - 1
      && (forall e :: e in c.entries && e.id != id ==> e in r.value.entries)
      && (forall e :: e in r.value.entries ==> e in c.entries)
    ensures r.Success? && IdsIncreasing(c) ==> IdsIncreasing(r.value) && !Registered(r.value, id)
  {
    if !Registered(c, id) then Failure(NotRegistered(id))
    else
      var i := PositionOf(c.entries, id);
      CutKeepsOthers(c.entries, i, id);
      if IdsIncreasing(c) then
        CutKeepsIdsIncreasing(c, i);
        Success(c.(entries := Cut(c.entries, i)))
      else
        Success(c.(entries := Cut(c.entries, i)))
  }

  /** Deleting the button just made gives back the registry as it was. */
  lemma DeleteUndoesMake(c: Controller, pinId: int, inputType: InputType, level: bool, now: Time)
    requires IdsIncreasing(c)
    ensures DeleteButton(MakeButton(c, pinId, inputType, level, now), c.nextId) == Success(c.(nextId := c.nextId + 1))
  {
    var m := MakeButton(c, pinId, inputType, level, now);
    DeleteLast(c, m);
  }

  /** Deleting the last entry, appended with the next identity. */
  lemma DeleteLast(c: Controller, m: Controller)
    requires IdsIncreasing(c)
    requires |m.entries| == |c.entries| + 1 && m.entries[..|c.entries|] == c.entries
    requires m.entries[|c.entries|].id == c.nextId
    ensures DeleteButton(m, c.nextId) == Success(m.(entries := c.entries))
  {
    var n := |c.entries|;
    assert Registered(m, c.nextId);
    assert forall k :: 0 <= k < n ==> m.entries[k].id != c.nextId by {
      forall k | 0 <= k < n
        ensures m.entries[k].id != c.nextId
      {
        assert m.entries[k] == c.entries[k];
      }
    }
    assert PositionOf(m.entries, c.nextId) == n;
    assert Cut(m.entries, n) == c.entries;
  }

  /** The entries with the entry of identity `id` holding button `b`. */
  function Replace(entries: seq<Entry>, id: nat, b: Buttons.Button): (r: seq<Entry>)
    ensures |r| == |entries|
    ensures forall i :: 0 <= i < |r| ==> r[i].id == entries[i].id
    ensures forall i :: 0 <= i < |r| && entries[i].id != id ==> r[i] == entries[i]
    ensures forall i :: 0 <= i < |r| && entries[i].id == id ==> r[i].button == b
  {
    seq(|entries|, i requires 0 <= i < |entries| => if entries[i].id == id then Entry(id, b) else entries[i])
  }

  /** `_on_gpio_edge`: the pin is looked up (several buttons is an error even
      when not running), an unknown pin is ignored, and the button found is
      updated with the level the edge brings: high after a rising edge. */
  function OnGpioEdge(c: Controller, pinId: int, rising: bool, now: Time): (r: Result<Reaction, ControllerError>)
    ensures GetButton(c, pinId).Failure? ==> r == Failure(SeveralButtons(pinId))
    ensures GetButton(c, pinId) == Success(None) ==> r == Success(Reaction(c, []))
    ensures c.status != Running && GetButton(c, pinId).Success? ==> r == Success(Reaction(c, []))
    ensures r.Success? ==>
      && r.value.controller.status == c.status && r.value.controller.nextId == c.nextId
      && |r.value.controller.entries| == |c.entries|
      && (forall i :: 0 <= i < |c.entries| ==> r.value.controller.entries[i].id == c.entries[i].id)
    ensures c.status == Running && GetButton(c, pinId).Success? && GetButton(c, pinId).value.Some? ==>
      var e := GetButton(c, pinId).value.value;
      var u := Buttons.Update(e.button, now, rising, true);
      && (u.Failure? ==> r == Failure(UpdateFailed(u.error)))
      && (u.Success? ==>
            && r.Success? && r.value.events == u.value.events
            && (forall i :: 0 <= i < |c.entries| && c.entries[i].id == e.id ==>
                  r.value.controller.entries[i].button == u.value.button)
            && (forall i :: 0 <= i < |c.entries| && c.entries[i].id != e.id ==>
                  r.value.controller.entries[i] == c.entries[i]))
  {
    match GetButton(c, pinId)
    case Failure(err) => Failure(err)
    case Success(None) => Success(Reaction(c, []))
    case Success(Some(e)) =>
      match UpdateButton(c.status, e.button, now, rising, true)
      case Failure(err) => Failure(UpdateFailed(err))
      case Success(o) =>
        if c.status != Running then Success(Reaction(c, []))
        else Success(Reaction(c.(entries := Replace(c.entries, e.id, o.button)), o.events))
  }

  /** Every button is consistent and none has a record later than `now`. */
  predicate AllSound(c: Controller, now: Time)
  {
    forall i :: 0 <= i < |c.entries| ==>
      Buttons.Consistent(c.entries[i].button) && Buttons.RecordedBy(c.entries[i].button, now)
  }

  /** With distinct pins and sound buttons an edge never raises, and the
      buttons stay sound. */
  lemma EdgeKeepsSound(c: Controller, pinId: int, rising: bool, now: Time)
    requires IdsIncreasing(c) && PinsUnique(c.entries) && AllSound(c, now)
    ensures OnGpioEdge(c, pinId, rising, now).Success?
    ensures AllSound(OnGpioEdge(c, pinId, rising, now).value.controller, now)
  {
    UniquePinsFindAtMostOne(c.entries, pinId);
    var g := GetButton(c, pinId);
    if g.value.Some? && c.status == Running {
      var e := g.value.value;
      Buttons.UpdatePreservesConsistency(e.button, now, rising, true);
      var b := Buttons.Update(e.button, now, rising, true).value.button;
      var es := Replace(c.entries, e.id, b);
      forall i | 0 <= i < |es|
        ensures Buttons.Consistent(es[i].button) && Buttons.RecordedBy(es[i].button, now)
      {
        if c.entries[i].id == e.id {
          assert es[i].button == b;
        } else {
          assert es[i] == c.entries[i];
        }
      }
    }
  }

  /** Only the button on the edge's pin changes, as long as identities are
      distinct. */
  lemma EdgeTouchesOnlyItsPin(c: Controller, pinId: int, rising: bool, now: Time)
    requires IdsIncreasing(c)
    requires OnGpioEdge(c, pinId, rising, now).Success?
    ensures var c' := OnGpioEdge(c, pinId, rising, now).value.controller;
      forall i :: 0 <= i < |c.entries| && c.entries[i].button.pinId != pinId ==> c'.entries[i] == c.entries[i]
  {
    var g := GetButton(c, pinId);
    if g.value.Some? && c.status == Running {
      var e := g.value.value;
      var k :| 0 <= k < |c.entries| && c.entries[k] == e;
      var c' := OnGpioEdge(c, pinId, rising, now).value.controller;
      forall i | 0 <= i < |c.entries| && c.entries[i].button.pinId != pinId
        ensures c'.entries[i] == c.entries[i]
      {
        if i < k {
          assert c.entries[i].id < e.id;
        } else if i > k {
          assert c.entries[i].id > e.id;
        }
      }
    }
  }

  /** The buttons of the scheduled-updates thread's pass: wake-up set and passed. */
  predicate DueAt(e: Entry, now: Time)
  {
    Schedule.Due(e.button.scheduledUpdateTime, now)
  }

  /** Updating `b` at `now` with events enabled succeeds and leaves it as `b'`. */
  predicate UpdatesTo(b: Buttons.Button, now: Time, level: bool, b': Buttons.Button)
  {
    var u := Buttons.Update(b, now, level, true);
    u.Success? && u.value.button == b'
  }

  /** The events of a pass in which every due button's update succeeds: the
      events of each due button, in the order of the button list. */
  function DueEvents(entries: seq<Entry>, now: Time, pinLevel: int -> bool): seq<Event>
    decreases |entries|
  {
    if |entries| == 0 then []
    else
      var k := |entries| - 1;
      var e := entries[k];
      var before := DueEvents(entries[..k], now, pinLevel);
      if !DueAt(e, now) then before
      else
        match Buttons.Update(e.button, now, pinLevel(e.button.pinId), true)
        case Failure(_) => before
        case Success(o) => before + o.events
  }

  /** The events of a pass extend by the next button's events when it is due,
      and not at all when it is not. */
  lemma DueEventsStep(entries: seq<Entry>, now: Time, pinLevel: int -> bool, i: nat)
    requires i < |entries|
    ensures !DueAt(entries[i], now) ==>
      DueEvents(entries[..i + 1], now, pinLevel) == DueEvents(entries[..i], now, pinLevel)
    ensures var e := entries[i];
      var u := Buttons.Update(e.button, now, pinLevel(e.button.pinId), true);
      DueAt(e, now) && u.Success? ==>
        DueEvents(entries[..i + 1], now, pinLevel) == DueEvents(entries[..i], now, pinLevel) + u.value.events
  {
    assert entries[..i + 1][..i] == entries[..i];
  }

  /** What the first `i` steps of a running pass leave: the due buttons among
      them updated, the others untouched, none of them due any more, the
      buttons after them untouched, and the events of the due ones raised. */
  predicate PassedUpTo(c: Controller, es: seq<Entry>, events: seq<Event>, i: nat, now: Time, pinLevel: int -> bool)
  {
    && i <= |c.entries| && |es| == |c.entries|
    && (forall k :: i <= k < |es| ==> es[k] == c.entries[k])
    && (forall k :: 0 <= k < i ==> es[k].id == c.entries[k].id)
    && (forall k :: 0 <= k < i && !DueAt(c.entries[k], now) ==> es[k] == c.entries[k])
    && (forall k :: 0 <= k < i && DueAt(c.entries[k], now) ==>
          UpdatesTo(c.entries[k].button, now, pinLevel(c.entries[k].button.pinId), es[k].button))
    && (forall k :: 0 <= k < i ==> !DueAt(es[k], now))
    && events == DueEvents(c.entries[..i], now, pinLevel)
  }

  /** The due button at `i` is the first of the pass whose update fails: every
      due button before it updates successfully. */
  predicate FirstDueFailure(c: Controller, now: Time, pinLevel: int -> bool, i: nat)
  {
    && i < |c.entries| && DueAt(c.entries[i], now)
    && Buttons.Update(c.entries[i].button, now, pinLevel(c.entries[i].button.pinId), true).Failure?
    && (forall k :: 0 <= k < i && DueAt(c.entries[k], now) ==>
          Buttons.Update(c.entries[k].button, now, pinLevel(c.entries[k].button.pinId), true).Success?)
  }

  /** A due button whose update fails, reached by the pass, is the first to fail. */
  lemma PassFailsFirst(c: Controller, es: seq<Entry>, events: seq<Event>, i: nat, now: Time, pinLevel: int -> bool)
    requires PassedUpTo(c, es, events, i, now, pinLevel) && i < |c.entries|
    requires DueAt(c.entries[i], now)
    requires Buttons.Update(c.entries[i].button, now, pinLevel(c.entries[i].button.pinId), true).Failure?
    ensures FirstDueFailure(c, now, pinLevel, i)
  {
    forall k | 0 <= k < i && DueAt(c.entries[k], now)
      ensures Buttons.Update(c.entries[k].button, now, pinLevel(c.entries[k].button.pinId), true).Success?
    {
      assert UpdatesTo(c.entries[k].button, now, pinLevel(c.entries[k].button.pinId), es[k].button);
    }
  }

  /** A step of the pass over a button that is not due. */
  lemma PassSkips(c: Controller, es: seq<Entry>, events: seq<Event>, i: nat, now: Time, pinLevel: int -> bool)
    requires PassedUpTo(c, es, events, i, now, pinLevel) && i < |c.entries|
    requires !DueAt(c.entries[i], now)
    ensures PassedUpTo(c, es, events, i + 1, now, pinLevel)
  {
    DueEventsStep(c.entries, now, pinLevel, i);
  }

  /** A step of the pass over a due button whose update succeeds with `o`. */
  lemma PassUpdates(c: Controller, es: seq<Entry>, events: seq<Event>, i: nat, now: Time, pinLevel: int -> bool,
                    o: Buttons.Outcome)
    requires PassedUpTo(c, es, events, i, now, pinLevel) && i < |c.entries|
    requires DueAt(c.entries[i], now)
    requires Buttons.Update(c.entries[i].button, now, pinLevel(c.entries[i].button.pinId), true) == Success(o)
    ensures PassedUpTo(c, es[i := Entry(c.entries[i].id, o.button)], events + o.events, i + 1, now, pinLevel)
  {
    var e := c.entries[i];
    var level := pinLevel(e.button.pinId);
    var es' := es[i := Entry(e.id, o.button)];
    assert events + o.events == DueEvents(c.entries[..i + 1], now, pinLevel) by {
      DueEventsStep(c.entries, now, pinLevel, i);
    }
    assert UpdatesTo(e.button, now, level, o.button);
    assert !DueAt(es'[i], now) by {
      Buttons.UpdateKeepsWakeUpAhead(e.button, now, level, true);
    }
    forall k | 0 <= k < i
      ensures es'[k] == es[k]
    {
    }
  }

  /** One pass of the scheduled-updates thread (controller.py, lines 80-84): the
      buttons due at `now` are picked first, then each is updated with its pin
      level read from the driver (`pinLevel`), events enabled. Outside the
      running status the guard makes the pass change nothing. An update that
      hits the empty press list ends the pass with the error. */
  method ScheduledPass(c: Controller, now: Time, pinLevel: int -> bool) returns (r: Result<Reaction, ControllerError>)
    ensures c.status != Running ==> r == Success(Reaction(c, []))
    ensures r.Failure? ==> exists i :: FirstDueFailure(c, now, pinLevel, i)
    ensures c.status == Running
      && (forall i :: 0 <= i < |c.entries| && DueAt(c.entries[i], now) ==>
            Buttons.Update(c.entries[i].button, now, pinLevel(c.entries[i].button.pinId), true).Success?)
      ==> r.Success?
    ensures r.Success? ==>
      var c' := r.value.controller;
      && c'.status == c.status && c'.nextId == c.nextId && |c'.entries| == |c.entries|
      && (forall i :: 0 <= i < |c.entries| ==> c'.entries[i].id == c.entries[i].id)
      && (forall i :: 0 <= i < |c.entries| && !DueAt(c.entries[i], now) ==> c'.entries[i] == c.entries[i])
    ensures r.Success? && c.status == Running ==>
      var c' := r.value.controller;
      && (forall i :: 0 <= i < |c.entries| && DueAt(c.entries[i], now) ==>
            UpdatesTo(c.entries[i].button, now, pinLevel(c.entries[i].button.pinId), c'.entries[i].button))
      && (forall i :: 0 <= i < |c'.entries| ==> !DueAt(c'.entries[i], now))
      && r.value.events == DueEvents(c.entries, now, pinLevel)
  {
    if c.status != Running {
      // The guard of `_update_button` turns every update of the pass into a no-op.
      return Success(Reaction(c, []));
    }
    var es := c.entries;
    var events := [];
    var i := 0;
    while i < |c.entries|
      invariant PassedUpTo(c, es, events, i, now, pinLevel)
    {
      var e := c.entries[i];
      if DueAt(e, now) {
        var u := UpdateButton(c.status, e.button, now, pinLevel(e.button.pinId), true);
        if u.Failure? {
          PassFailsFirst(c, es, events, i, now, pinLevel);
          return Failure(UpdateFailed(u.error));
        }
        PassUpdates(c, es, events, i, now, pinLevel, u.value);
        es := es[i := Entry(e.id, u.value.button)];
        events := events + u.value.events;
      } else {
        PassSkips(c, es, events, i, now, pinLevel);
      }
      i := i + 1;
    }
    assert c.entries[..i] == c.entries;
    r := Success(Reaction(c.(entries := es), events));
  }
}

=== FILE: events.dfy ===
/** The semantic events a button raises and the wiring of a button to its pin. */
module Events {

  /** The five event kinds; each has its own handler list on a button. */
  datatype Event = Press | Release | LongPress | DoubleClick | Click

  /** How the level of the input pin maps to the button being pressed. */
  datatype InputType = PressedWhenOn | PressedWhenOff

  /** Whether the button counts as pressed when its pin reads `level`. */
  function LevelMeansPressed(inputType: InputType, level: bool): (pressed: bool)
    ensures inputType == PressedWhenOn ==> pressed == level
    ensures inputType == PressedWhenOff ==> pressed == !level
  {
    match inputType
    case PressedWhenOn => level
    case PressedWhenOff => !level
  }

  /** The pin level at which a button of `inputType` reads as `pressed`. */
  function LevelFor(inputType: InputType, pressed: bool): (level: bool)
    ensures LevelMeansPressed(inputType, level) == pressed
  {
    if inputType == PressedWhenOn then pressed else !pressed
  }

  /** Raising an event: with an event loop the event is queued for its handlers,
      without one (`raise_events=False`, `event_loop is None`) nothing happens. */
  function Emit(events: seq<Event>, e: Event, enabled: bool): (r: seq<Event>)
    ensures enabled ==> r == events + [e]
    ensures !enabled ==> r == events
  {
    if enabled then events + [e] else events
  }

  /** Position of each event kind in the order one update checks them. */
  function Rank(e: Event): nat
  {
    match e
    case Press => 0
    case Release => 1
    case LongPress => 2
    case DoubleClick => 3
    case Click => 4
  }

  /** The events of one update come in checking order, each kind at most once. */
  predicate InCheckingOrder(events: seq<Event>)
  {
    forall i, j :: 0 <= i < j < |events| ==> Rank(events[i]) < Rank(events[j])
  }

  /** Number of times `e` was raised in `events`. */
  function Count(e: Event, events: seq<Event>): nat
  {
    multiset(events)[e]
  }

  /** Counting over two lists of events one after the other. */
  lemma CountConcat(e: Event, first: seq<Event>, second: seq<Event>)
    ensures Count(e, first + second) == Count(e, first) + Count(e, second)
  {
    assert multiset(first + second) == multiset(first) + multiset(second);
  }

  /** Raising an event after events of lower rank keeps the checking order. */
  lemma EmitKeepsOrder(events: seq<Event>, e: Event, enabled: bool)
    requires InCheckingOrder(events)
    requires forall i :: 0 <= i < |events| ==> Rank(events[i]) < Rank(e)
    ensures InCheckingOrder(Emit(events, e, enabled))
    ensures forall i :: 0 <= i < |Emit(events, e, enabled)| ==> Rank(Emit(events, e, enabled)[i]) <= Rank(e)
  {
  }

  /** Events in checking order raise each kind at most once. */
  lemma {:induction false} InCheckingOrderCountsOnce(events: seq<Event>, e: Event)
    requires InCheckingOrder(events)
    ensures Count(e, events) <= 1
    ensures e !in events ==> Count(e, events) == 0
    decreases |events|
  {
    if |events| > 0 {
      var rest := events[1..];
      assert events == [events[0]] + rest;
      assert InCheckingOrder(rest) by {
        forall i, j | 0 <= i < j < |rest|
          ensures Rank(rest[i]) < Rank(rest[j])
        {
          assert rest[i] == events[i + 1] && rest[j] == events[j + 1];
        }
      }
      InCheckingOrderCountsOnce(rest, e);
      if events[0] == e {
        assert e !in rest by {
          forall j | 0 <= j < |rest|
            ensures rest[j] != e
          {
            assert Rank(events[0]) < Rank(events[j + 1]);
          }
        }
      }
    }
  }
}

=== FILE: handlers.dfy ===
/** The handler lists of a button: one list per event kind, appended to by the
    `add_on_*` methods and shrunk by the `remove_on_*` methods. Handlers are
    kept abstract; only their identity matters. */
module Handlers {
  import opened Wrappers
  import opened Events

  /** `list.remove` raises ValueError when the handler is not in the list. */
  datatype HandlerError = NotRegistered

  datatype Handlers<H> = Handlers(
    press: seq<H>,
    release: seq<H>,
    longPress: seq<H>,
    click: seq<H>,
    doubleClick: seq<H>)

  /** A new button has no handler. */
  function NoHandlers<H>(): (hs: Handlers<H>)
    ensures forall e :: For(hs, e) == []
  {
    Handlers([], [], [], [], [])
  }

  /** The handlers of one event kind, in the order they were added. */
  function For<H>(hs: Handlers<H>, e: Event): seq<H>
  {
    match e
    case Press => hs.press
    case Release => hs.release
    case LongPress => hs.longPress
    case Click => hs.click
    case DoubleClick => hs.doubleClick
  }

  /** Replaces the handlers of one event kind. */
  function With<H>(hs: Handlers<H>, e: Event, list: seq<H>): (r: Handlers<H>)
    ensures For(r, e) == list
    ensures forall other :: other != e ==> For(r, other) == For(hs, other)
  {
    match e
    case Press => hs.(press := list)
    case Release => hs.(release := list)
    case LongPress => hs.(longPress := list)
    case Click => hs.(click := list)
    case DoubleClick => hs.(doubleClick := list)
  }

  /** `add_on_*`: the handler goes last in its event's list, even when it is
      already there, and no other list changes. */
  function Add<H>(hs: Handlers<H>, e: Event, h: H): (r: Handlers<H>)
    ensures For(r, e) == For(hs, e) + [h]
    ensures forall other :: other != e ==> For(r, other) == For(hs, other)
  {
    With(hs, e, For(hs, e) + [h])
  }

  /** Position of the first occurrence of `h` in `s`. */
  function IndexOf<H(==)>(s: seq<H>, h: H): (i: nat)
    requires h in s
    ensures i < |s| && s[i] == h && h !in s[..i]
  {
    if s[0] == h then 0 else 1 + IndexOf(s[1..], h)
  }

  /** `list.remove`: drops the first occurrence, keeping the order of the
      others; a handler that is not there is an error. */
  function RemoveFirst<H(==)>(s: seq<H>, h: H): (r: Result<seq<H>, HandlerError>)
    ensures r.Failure? <==> h !in s
    ensures r.Success? ==> |r.value| == |s| - 1 && multiset(r.value) == multiset(s) - multiset{h}
    ensures r.Success? ==>
      exists i :: 0 <= i < |s| && s[i] == h && h !in s[..i] && r.value == s[..i] + s[i + 1..]
  {
    if h !in s then Failure(NotRegistered)
    else
      var i := IndexOf(s, h);
      assert s == s[..i] + [h] + s[i + 1..];
      Success(s[..i] + s[i + 1..])
  }

  /** `remove_on_*`: the first registration of the handler for that event is
      dropped; the other lists do not change. */
  function Remove<H(==)>(hs: Handlers<H>, e: Event, h: H): (r: Result<Handlers<H>, HandlerError>)
    ensures r.Failure? <==> h !in For(hs, e)
    ensures r.Success? ==> forall other :: other != e ==> For(r.value, other) == For(hs, other)
    ensures r.Success? ==> multiset(For(r.value, e)) == multiset(For(hs, e)) - multiset{h}
    ensures r.Success? ==> For(r.value, e) == RemoveFirst(For(hs, e), h).value
  {
    match RemoveFirst(For(hs, e), h)
    case Failure(err) => Failure(err)
    case Success(list) => Success(With(hs, e, list))
  }

  /** Removing a handler just added to a list that did not hold it undoes the
      addition. */
  lemma RemoveAfterAdd<H>(hs: Handlers<H>, e: Event, h: H)
    requires h !in For(hs, e)
    ensures Remove(Add(hs, e, h), e, h) == Success(hs)
  {
    var s := For(hs, e);
    var added := s + [h];
    assert h in added by { assert added[|s|] == h; }
    var i := IndexOf(added, h);
    forall j | 0 <= j < |s|
      ensures added[j] != h
    {
      assert added[j] == s[j];
    }
    assert i == |s|;
    assert added[..i] + added[i + 1..] == s;
    assert RemoveFirst(For(Add(hs, e, h), e), h) == Success(s);
    assert With(hs, e, s) == hs;
  }

  /** The handler calls `_raise_event` schedules for the raised events: each
      event's handlers in the order they were added, event after event. */
  function Calls<H>(hs: Handlers<H>, events: seq<Event>): (r: seq<H>)
    ensures |events| == 0 ==> r == []
    ensures |events| == 1 ==> r == For(hs, events[0])
    ensures forall i :: 0 <= i < |events| ==> multiset(For(hs, events[i])) <= multiset(r)
    decreases |events|
  {
    if |events| == 0 then []
    else
      var rest := Calls(hs, events[1..]);
      assert forall i :: 1 <= i < |events| ==> events[i] == events[1..][i - 1];
      For(hs, events[0]) + rest
  }

  /** The calls for two lists of events raised one after the other are the
      calls for the first, then those for the second: each raised event has
      its handlers scheduled once, in order. */
  lemma {:induction false} CallsConcat<H>(hs: Handlers<H>, first: seq<Event>, second: seq<Event>)
    ensures Calls(hs, first + second) == Calls(hs, first) + Calls(hs, second)
    decreases |first|
  {
    if |first| > 0 {
      assert (first + second)[1..] == first[1..] + second;
      CallsConcat(hs, first[1..], second);
    } else {
      assert first + second == second;
    }
  }

  /** A handler is called exactly when one of the raised events has it. */
  lemma {:induction false} CalledIffRegistered<H>(hs: Handlers<H>, events: seq<Event>, h: H)
    ensures h in Calls(hs, events) <==> exists e :: e in events && h in For(hs, e)
    decreases |events|
  {
    if |events| > 0 {
      CalledIffRegistered(hs, events[1..], h);
      assert Calls(hs, events) == For(hs, events[0]) + Calls(hs, events[1..]);
      assert forall e :: e in events <==> e == events[0] || e in events[1..];
    }
  }
}

=== FILE: legacy.dfy ===
/** The button of the older controller (rpibuttons): the same classifier without
    wake-up scheduling, polled by the controller's main loop, and different
    default timeouts. */
module LegacyButtons {
  import opened Wrappers
  import opened Events
  import Buttons

  type Time = int

  const LegacyDoubleClickTimeout: Time := 400
  const LegacyLongPressTimeout: Time := 500

  datatype LegacyButton = LegacyButton(
    pinId: int,
    inputType: InputType,
    pressed: bool,
    longPressed: bool,
    doubleClickTimeout: Time,
    longPressTimeout: Time,
    pressTimes: seq<Time>,
    releaseTimes: seq<Time>)

  datatype LegacyOutcome = LegacyOutcome(button: LegacyButton, events: seq<Event>)

  /** A new button: released, no history, the older default timeouts. */
  function NewButton(pinId: int, inputType: InputType): (b: LegacyButton)
    ensures b.pinId == pinId && b.inputType == inputType
    ensures !b.pressed && !b.longPressed && b.pressTimes == [] && b.releaseTimes == []
    ensures b.doubleClickTimeout == LegacyDoubleClickTimeout && b.longPressTimeout == LegacyLongPressTimeout
  {
    LegacyButton(pinId, inputType, false, false, LegacyDoubleClickTimeout, LegacyLongPressTimeout, [], [])
  }

  datatype LegacyStage = LegacyStage(button: LegacyButton, wasPressed: bool, events: seq<Event>)

  /** The new level, the long-press reset on release, and the press or release edge. */
  function Sense(b: LegacyButton, now: Time, level: bool, raiseEvents: bool): LegacyStage
  {
    var pressed := LevelMeansPressed(b.inputType, level);
    var b1 := b.(pressed := pressed, longPressed := pressed && b.longPressed);
    if pressed && !b.pressed then
      LegacyStage(b1.(pressTimes := b.pressTimes + [now]), b.pressed, Emit([], Press, raiseEvents))
    else if !pressed && b.pressed then
      LegacyStage(b1.(releaseTimes := b.releaseTimes + [now]), b.pressed, Emit([], Release, raiseEvents))
    else
      LegacyStage(b1, b.pressed, [])
  }

  /** Long press, once per press; nothing is scheduled when it is not yet due. */
  function CheckLongPress(s: LegacyStage, now: Time, raiseEvents: bool): LegacyStage
    requires s.button.pressed ==> |s.button.pressTimes| > 0
  {
    var b := s.button;
    if b.pressed && !b.longPressed && now - b.pressTimes[|b.pressTimes| - 1] > b.longPressTimeout then
      LegacyStage(b.(longPressed := true), s.wasPressed, Emit(s.events, LongPress, raiseEvents))
    else
      s
  }

  /** Double click, on a release whose press before last is recent. */
  function CheckDoubleClick(s: LegacyStage, now: Time, raiseEvents: bool): LegacyStage
  {
    var b := s.button;
    if !b.pressed && s.wasPressed && |b.pressTimes| >= 2
       && now - b.pressTimes[|b.pressTimes| - 2] < b.doubleClickTimeout then
      LegacyStage(b.(pressTimes := [], releaseTimes := []), s.wasPressed, Emit(s.events, DoubleClick, raiseEvents))
    else
      s
  }

  /** Click, once the last press cannot start a double click any more. */
  function CheckClick(s: LegacyStage, now: Time, raiseEvents: bool): LegacyStage
  {
    var b := s.button;
    if && |b.pressTimes| > 0 && |b.releaseTimes| > 0
       && b.releaseTimes[|b.releaseTimes| - 1] > b.pressTimes[|b.pressTimes| - 1]
       && now - b.pressTimes[|b.pressTimes| - 1] >= b.doubleClickTimeout then
      LegacyStage(b.(pressTimes := [], releaseTimes := []), s.wasPressed, Emit(s.events, Click, raiseEvents))
    else
      s
  }

  /** The older `Button.update`, with the pin level read by the caller at `now`. */
  function Update(b: LegacyButton, now: Time, level: bool, raiseEvents: bool): (r: Result<LegacyOutcome, Buttons.UpdateError>)
    ensures r.Failure? <==> LevelMeansPressed(b.inputType, level) && b.pressed && |b.pressTimes| == 0
    ensures r.Success? ==>
      && r.value.button.pressed == LevelMeansPressed(b.inputType, level)
      && (r.value.button.longPressed ==> r.value.button.pressed)
      && r.value.button.pinId == b.pinId && r.value.button.inputType == b.inputType
      && r.value.button.doubleClickTimeout == b.doubleClickTimeout
      && r.value.button.longPressTimeout == b.longPressTimeout
    ensures r.Success? && !raiseEvents ==> r.value.events == []
  {
    var s1 := Sense(b, now, level, raiseEvents);
    if s1.button.pressed && |s1.button.pressTimes| == 0 then
      Failure(Buttons.PressTimesEmpty)
    else
      var s4 := CheckClick(CheckDoubleClick(CheckLongPress(s1, now, raiseEvents), now, raiseEvents), now, raiseEvents);
      Success(LegacyOutcome(s4.button, s4.events))
  }

  /** The current button carrying the same state, with a wake-up time. */
  function Widen(b: LegacyButton, scheduled: Time): (c: Buttons.Button)
    ensures c.scheduledUpdateTime == scheduled
  {
    Buttons.Button(b.pinId, b.inputType, b.pressed, b.longPressed, b.doubleClickTimeout,
                   b.longPressTimeout, b.pressTimes, b.releaseTimes, scheduled)
  }

  /** The older button's view of a current button: the wake-up is dropped. */
  function Narrow(c: Buttons.Button): (b: LegacyButton)
    ensures forall scheduled :: Widen(b, scheduled) == c.(scheduledUpdateTime := scheduled)
  {
    LegacyButton(c.pinId, c.inputType, c.pressed, c.longPressed, c.doubleClickTimeout,
                 c.longPressTimeout, c.pressTimes, c.releaseTimes)
  }

  /** The older button's view of a stage of the current update. */
  function NarrowStage(s: Buttons.Stage): LegacyStage
  {
    LegacyStage(Narrow(s.button), s.wasPressed, s.events)
  }

  lemma SenseAgrees(b: LegacyButton, scheduled: Time, now: Time, level: bool, raiseEvents: bool)
    ensures NarrowStage(Buttons.Sense(Widen(b, scheduled), now, level, raiseEvents)) == Sense(b, now, level, raiseEvents)
  {
  }

  lemma ChecksAgree(s: Buttons.Stage, now: Time, raiseEvents: bool)
    requires s.button.pressed ==> |s.button.pressTimes| > 0
    ensures var s2 := Buttons.CheckLongPress(s, now, raiseEvents);
      && NarrowStage(s2) == CheckLongPress(NarrowStage(s), now, raiseEvents)
      && var s3 := Buttons.CheckDoubleClick(s2, now, raiseEvents);
      && NarrowStage(s3) == CheckDoubleClick(NarrowStage(s2), now, raiseEvents)
      && NarrowStage(Buttons.CheckClick(s3, now, raiseEvents)) == CheckClick(NarrowStage(s3), now, raiseEvents)
  {
    var s2 := Buttons.CheckLongPress(s, now, raiseEvents);
    LongPressAgrees(s, now, raiseEvents);
    var s3 := Buttons.CheckDoubleClick(s2, now, raiseEvents);
    DoubleClickAgrees(s2, now, raiseEvents);
    ClickAgrees(s3, now, raiseEvents);
  }

  /** The older long-press check is the current one without the wake-up. */
  lemma LongPressAgrees(s: Buttons.Stage, now: Time, raiseEvents: bool)
    requires s.button.pressed ==> |s.button.pressTimes| > 0
    ensures NarrowStage(Buttons.CheckLongPress(s, now, raiseEvents)) == CheckLongPress(NarrowStage(s), now, raiseEvents)
  {
  }

  /** The older double-click check is the current one. */
  lemma DoubleClickAgrees(s: Buttons.Stage, now: Time, raiseEvents: bool)
    ensures NarrowStage(Buttons.CheckDoubleClick(s, now, raiseEvents)) == CheckDoubleClick(NarrowStage(s), now, raiseEvents)
  {
  }

  /** The older click check is the current one without the wake-up. */
  lemma ClickAgrees(s: Buttons.Stage, now: Time, raiseEvents: bool)
    ensures NarrowStage(Buttons.CheckClick(s, now, raiseEvents)) == CheckClick(NarrowStage(s), now, raiseEvents)
  {
  }

  /** The older update is the current one with scheduling left out: from any
      state and any wake-up time, both fail together, and otherwise raise the
      same events and leave the same state apart from the wake-up. */
  lemma UpdateAgreesWithCurrent(b: LegacyButton, scheduled: Time, now: Time, level: bool, raiseEvents: bool)
    ensures var r, c := Update(b, now, level, raiseEvents), Buttons.Update(Widen(b, scheduled), now, level, raiseEvents);
      && (r.Success? <==> c.Success?)
      && (r.Success? ==> r.value == LegacyOutcome(Narrow(c.value.button), c.value.events))
  {
    SenseAgrees(b, scheduled, now, level, raiseEvents);
    var w := Widen(b, scheduled);
    if Buttons.Update(w, now, level, raiseEvents).Success? {
      var s1, s2, s3, s4 := Buttons.UpdateStages(w, now, level, raiseEvents);
      ChecksAgree(s1, now, raiseEvents);
    }
  }
}

=== FILE: legacy_controller.dfy ===
/** The older controller (rpibuttons): no edge callback and no wake-ups; its
    main loop polls every button in turn while it is running. */
module LegacyControllers {
  import opened Wrappers
  import opened Events
  import opened Lifecycle
  import Buttons
  import Controllers
  import opened LegacyButtons

  datatype LegacyController = LegacyController(status: Status, buttons: seq<LegacyButton>)

  /** `make_button`: the initial update runs whatever the status (the older
      controller has no guard) and raises nothing; the button is appended. */
  function MakeButton(c: LegacyController, pinId: int, inputType: InputType, level: bool, now: Time): (r: LegacyController)
    ensures r.status == c.status
    ensures |r.buttons| == |c.buttons| + 1 && r.buttons[..|c.buttons|] == c.buttons
    ensures var b := r.buttons[|c.buttons|];
      && b.pinId == pinId && b.inputType == inputType
      && b.pressed == LevelMeansPressed(inputType, level) && !b.longPressed
      && b.pressTimes == (if b.pressed then [now] else []) && b.releaseTimes == []
  {
    var o := Update(NewButton(pinId, inputType), now, level, false).value;
    c.(buttons := c.buttons + [o.button])
  }

  /** Polling `b` with events enabled succeeds and leaves it as `b'`. */
  predicate UpdatesTo(b: LegacyButton, now: Time, level: bool, b': LegacyButton)
  {
    var u := Update(b, now, level, true);
    u.Success? && u.value.button == b'
  }

  /** Button `i` is the first whose poll fails: every poll before it succeeds. */
  predicate FirstFailure(c: LegacyController, nows: seq<Time>, levels: seq<bool>, i: nat)
    requires |nows| == |c.buttons| && |levels| == |c.buttons|
  {
    && i < |c.buttons|
    && Update(c.buttons[i], nows[i], levels[i], true).Failure?
    && (forall k :: 0 <= k < i ==> Update(c.buttons[k], nows[k], levels[k], true).Success?)
  }

  /** What one turn of the main loop does: leave, or poll every button. */
  datatype Turn = Leave | Polled(controller: LegacyController, events: seq<Event>)

  /** One turn of the main loop of `run` (lines 126-143): once the status is
      no longer running the loop is left; otherwise every button is updated
      in list order with events enabled, button `i` seeing `levels[i]` at
      `nows[i]`. An update that hits the empty press list ends `run` with the
      error. */
  method PollTurn(c: LegacyController, nows: seq<Time>, levels: seq<bool>) returns (r: Result<Turn, Buttons.UpdateError>)
    requires |nows| == |c.buttons| && |levels| == |c.buttons|
    ensures c.status != Running <==> r == Success(Leave)
    ensures r.Failure? ==> exists i :: FirstFailure(c, nows, levels, i)
    ensures c.status == Running && (forall i :: 0 <= i < |c.buttons| ==> Update(c.buttons[i], nows[i], levels[i], true).Success?) ==>
      r.Success?
    ensures r.Success? && r.value.Polled? ==>
      var c' := r.value.controller;
      && c'.status == c.status && |c'.buttons| == |c.buttons|
      && (forall i :: 0 <= i < |c.buttons| ==> UpdatesTo(c.buttons[i], nows[i], levels[i], c'.buttons[i]))
      && r.value.events == AllEvents(c.buttons, nows, levels)
  {
    if c.status != Running {
      return Success(Leave);
    }
    var bs := c.buttons;
    var events := [];
    var i := 0;
    while i < |c.buttons|
      invariant 0 <= i <= |c.buttons| && |bs| == |c.buttons|
      invariant forall k :: i <= k < |bs| ==> bs[k] == c.buttons[k]
      invariant forall k :: 0 <= k < i ==> UpdatesTo(c.buttons[k], nows[k], levels[k], bs[k])
      invariant events == AllEvents(c.buttons[..i], nows[..i], levels[..i])
    {
      var u := Update(c.buttons[i], nows[i], levels[i], true);
      if u.Failure? {
        assert FirstFailure(c, nows, levels, i);
        return Failure(u.error);
      }
      AllEventsStep(c.buttons, nows, levels, i);
      bs := bs[i := u.value.button];
      events := events + u.value.events;
      i := i + 1;
    }
    assert c.buttons[..i] == c.buttons && nows[..i] == nows && levels[..i] == levels;
    r := Success(Polled(c.(buttons := bs), events));
  }

  /** The events of a turn in which every update succeeds: each button's
      events, button after button. */
  function AllEvents(buttons: seq<LegacyButton>, nows: seq<Time>, levels: seq<bool>): seq<Event>
    requires |nows| == |buttons| && |levels| == |buttons|
    decreases |buttons|
  {
    if |buttons| == 0 then []
    else
      var k := |buttons| - 1;
      match Update(buttons[k], nows[k], levels[k], true)
      case Failure(_) => []
      case Success(o) => AllEvents(buttons[..k], nows[..k], levels[..k]) + o.events
  }

  lemma AllEventsStep(buttons: seq<LegacyButton>, nows: seq<Time>, levels: seq<bool>, i: nat)
    requires |nows| == |buttons| && |levels| == |buttons| && i < |buttons|
    requires Update(buttons[i], nows[i], levels[i], true).Success?
    ensures AllEvents(buttons[..i + 1], nows[..i + 1], levels[..i + 1])
      == AllEvents(buttons[..i], nows[..i], levels[..i]) + Update(buttons[i], nows[i], levels[i], true).value.events
  {
    assert buttons[..i + 1][..i] == buttons[..i];
    assert nows[..i + 1][..i] == nows[..i];
    assert levels[..i + 1][..i] == levels[..i];
  }

  /** The older `make_button` makes the button the current one makes once the
      controller runs: the same state, apart from the wake-up the older button
      does not have and its own default double-click timeout. */
  lemma MakeButtonAgreesWithCurrent(c: LegacyController, current: Controllers.Controller,
                                    pinId: int, inputType: InputType, level: bool, now: Time)
    requires current.status == Running
    ensures MakeButton(c, pinId, inputType, level, now).buttons[|c.buttons|]
      == Narrow(Controllers.MakeButton(current, pinId, inputType, level, now).entries[|current.entries|].button)
           .(doubleClickTimeout := LegacyDoubleClickTimeout)
  {
  }
}

=== FILE: legacy_traces.dfy ===
/** Successive polls of one button of the older controller, the scenarios of
    the controller's tests, and the general facts behind them. */
module LegacyTraces {
  import opened Wrappers
  import opened Events
  import Buttons
  import Traces
  import opened LegacyButtons

  type Sample = Traces.Sample

  /** Feeds the samples to the button in turn, as the main loop does on every
      turn; the events are those of all the polls, in order. A poll that
      fails stops the run. */
  function Run(b: LegacyButton, samples: seq<Sample>, raiseEvents: bool): Result<LegacyOutcome, Buttons.UpdateError>
    decreases |samples|, 1
  {
    if |samples| == 0 then Success(LegacyOutcome(b, []))
    else Continue(b, samples[0], samples[1..], raiseEvents)
  }

  /** A run that starts with the poll for `first`. This step of the recursion
      keeps one unfolding of `Run` from reaching the poll itself, so that a
      proof about runs sees the update only where it asks for it. */
  function Continue(b: LegacyButton, first: Sample, rest: seq<Sample>, raiseEvents: bool): Result<LegacyOutcome, Buttons.UpdateError>
    decreases |rest| + 1, 0
  {
    After(b, first, rest, raiseEvents)
  }

  /** The poll for `first`, then the run of the rest from where it left the button. */
  function After(b: LegacyButton, first: Sample, rest: seq<Sample>, raiseEvents: bool): Result<LegacyOutcome, Buttons.UpdateError>
    decreases |rest| + 1, -1
  {
    match Update(b, first.now, first.level, raiseEvents)
    case Failure(e) => Failure(e)
    case Success(o) => Then(o, Run(o.button, rest, raiseEvents))
  }

  /** A run whose first part produced `o`. */
  function Then(o: LegacyOutcome, rest: Result<LegacyOutcome, Buttons.UpdateError>): Result<LegacyOutcome, Buttons.UpdateError>
  {
    match rest
    case Failure(e) => Failure(e)
    case Success(r) => Success(LegacyOutcome(r.button, o.events + r.events))
  }

  /** Running two lists of samples one after the other is running the second
      from where the first left the button. */
  lemma {:induction false} RunConcat(b: LegacyButton, first: seq<Sample>, second: seq<Sample>, raiseEvents: bool)
    requires Run(b, first, raiseEvents).Success?
    ensures var o := Run(b, first, raiseEvents).value;
      Run(b, first + second, raiseEvents) == Then(o, Run(o.button, second, raiseEvents))
    decreases |first|
  {
    if |first| == 0 {
      assert first + second == second;
      match Run(b, second, raiseEvents)
      case Failure(e) =>
      case Success(r) => assert [] + r.events == r.events;
    } else {
      var all := first + second;
      assert all[0] == first[0] && all[1..] == first[1..] + second;
      assert Run(b, first, raiseEvents) == Continue(b, first[0], first[1..], raiseEvents);
      assert Continue(b, first[0], first[1..], raiseEvents) == After(b, first[0], first[1..], raiseEvents);
      var u := Update(b, first[0].now, first[0].level, raiseEvents).value;
      assert all == [first[0]] + all[1..];
      PollThen(b, first[0], all[1..], u, raiseEvents);
      RunConcat(u.button, first[1..], second, raiseEvents);
      var o := Run(u.button, first[1..], raiseEvents).value;
      match Run(o.button, second, raiseEvents)
      case Failure(e) =>
      case Success(r) =>
        assert u.events + (o.events + r.events) == (u.events + o.events) + r.events;
    }
  }

  /** A sample of the button's own wiring: pressed or released at `now`. */
  function At(b: LegacyButton, now: Time, pressed: bool): (s: Sample)
    ensures s.now == now && LevelMeansPressed(b.inputType, s.level) == pressed
  {
    Traces.Sample(now, LevelFor(b.inputType, pressed))
  }

  /** Polls every `step` ms from `start` on, the button held down. */
  function HeldPolls(b: LegacyButton, start: Time, count: nat, step: nat): (r: seq<Sample>)
    ensures |r| == count
    ensures forall i :: 0 <= i < count ==> r[i] == At(b, start + i * step, true)
    decreases count
  {
    if count == 0 then [] else [At(b, start, true)] + HeldPolls(b, start + step, count - 1, step)
  }

  /** While the button stays held and either has already been long-pressed or
      has not been held past the long-press timeout, and no click is waiting,
      polling changes nothing and raises nothing. */
  lemma {:induction false} HeldQuietly(b: LegacyButton, samples: seq<Sample>, raiseEvents: bool)
    requires b.pressed && |b.pressTimes| > 0
    requires |b.releaseTimes| == 0 || b.releaseTimes[|b.releaseTimes| - 1] <= b.pressTimes[|b.pressTimes| - 1]
    requires forall i :: 0 <= i < |samples| ==> LevelMeansPressed(b.inputType, samples[i].level)
    requires !b.longPressed ==>
      forall i :: 0 <= i < |samples| ==> samples[i].now - b.pressTimes[|b.pressTimes| - 1] <= b.longPressTimeout
    ensures Run(b, samples, raiseEvents) == Success(LegacyOutcome(b, []))
    decreases |samples|
  {
    if |samples| > 0 {
      var s1 := Sense(b, samples[0].now, samples[0].level, raiseEvents);
      assert s1 == LegacyStage(b, true, []);
      var s2 := CheckLongPress(s1, samples[0].now, raiseEvents);
      assert s2 == s1;
      var s3 := CheckDoubleClick(s2, samples[0].now, raiseEvents);
      assert s3 == s2;
      var s4 := CheckClick(s3, samples[0].now, raiseEvents);
      assert s4 == s3;
      assert Update(b, samples[0].now, samples[0].level, raiseEvents) == Success(LegacyOutcome(b, []));
      assert samples == [samples[0]] + samples[1..];
      PollThen(b, samples[0], samples[1..], LegacyOutcome(b, []), raiseEvents);
      HeldQuietly(b, samples[1..], raiseEvents);
      var none: seq<Event> := [];
      assert none + none == none;
    } else {
      assert Run(b, samples, raiseEvents) == Success(LegacyOutcome(b, []));
    }
  }

  /** A run is its first poll, then the run of the remaining samples from
      where that poll left the button. */
  lemma PollThen(b: LegacyButton, s: Sample, rest: seq<Sample>, o: LegacyOutcome, raiseEvents: bool)
    requires Update(b, s.now, s.level, raiseEvents) == Success(o)
    ensures Run(b, [s] + rest, raiseEvents) == Then(o, Run(o.button, rest, raiseEvents))
  {
    assert ([s] + rest)[0] == s && ([s] + rest)[1..] == rest;
    assert Run(b, [s] + rest, raiseEvents) == Continue(b, s, rest, raiseEvents);
    assert Continue(b, s, rest, raiseEvents) == After(b, s, rest, raiseEvents);
  }

  /** Pressing a button at rest records the press and raises only the press. */
  lemma PressFromRest(b: LegacyButton, t: Time, rest: seq<Sample>)
    requires !b.pressed && !b.longPressed && b.pressTimes == [] && b.releaseTimes == []
    requires b.longPressTimeout >= 0
    ensures var b' := b.(pressed := true, pressTimes := [t]);
      Run(b, [At(b, t, true)] + rest, true) == Then(LegacyOutcome(b', [Press]), Run(b', rest, true))
  {
    var s1 := Sense(b, t, At(b, t, true).level, true);
    var b' := b.(pressed := true, pressTimes := [t]);
    assert s1 == LegacyStage(b', false, [Press]);
    PollThen(b, At(b, t, true), rest, LegacyOutcome(b', [Press]), true);
  }

  /** The button at rest: released, no press or release waiting. */
  function Rest(b: LegacyButton): LegacyButton
  {
    b.(pressed := false, longPressed := false, pressTimes := [], releaseTimes := [])
  }

  /** Releasing at least the double-click timeout after a single press: the
      click comes with the release, since no second press could still make
      it a double click. */
  lemma LateReleaseOfOnePress(b: LegacyButton, t: Time, rest: seq<Sample>)
    requires b.pressed && |b.pressTimes| == 1 && b.releaseTimes == []
    requires b.pressTimes[0] < t && t - b.pressTimes[0] >= b.doubleClickTimeout
    ensures Run(b, [At(b, t, false)] + rest, true) == Then(LegacyOutcome(Rest(b), [Release, Click]), Run(Rest(b), rest, true))
  {
    var s1 := Sense(b, t, At(b, t, false).level, true);
    assert s1 == LegacyStage(b.(pressed := false, longPressed := false, releaseTimes := [t]), true, [Release]);
    var s2 := CheckLongPress(s1, t, true);
    assert s2 == s1;
    var s3 := CheckDoubleClick(s2, t, true);
    assert s3 == s2;
    assert CheckClick(s3, t, true) == LegacyStage(Rest(b), true, [Release, Click]);
    PollThen(b, At(b, t, false), rest, LegacyOutcome(Rest(b), [Release, Click]), true);
  }

  /** Releasing soon after a single press: the release is kept for a possible
      double click and no click is raised yet. */
  lemma EarlyReleaseOfOnePress(b: LegacyButton, t: Time, rest: seq<Sample>)
    requires b.pressed && |b.pressTimes| == 1 && b.releaseTimes == []
    requires b.pressTimes[0] <= t && t - b.pressTimes[0] < b.doubleClickTimeout
    ensures var b' := b.(pressed := false, longPressed := false, releaseTimes := [t]);
      Run(b, [At(b, t, false)] + rest, true) == Then(LegacyOutcome(b', [Release]), Run(b', rest, true))
  {
    var b' := b.(pressed := false, longPressed := false, releaseTimes := [t]);
    var s1 := Sense(b, t, At(b, t, false).level, true);
    assert s1 == LegacyStage(b', true, [Release]);
    var s2 := CheckLongPress(s1, t, true);
    assert s2 == s1;
    var s3 := CheckDoubleClick(s2, t, true);
    assert s3 == s2;
    assert CheckClick(s3, t, true) == s3;
    PollThen(b, At(b, t, false), rest, LegacyOutcome(b', [Release]), true);
  }

  /** A single click waiting while released: nothing happens before the
      double-click timeout has passed since its press. */
  lemma ClickNotYetDue(b: LegacyButton, t: Time, rest: seq<Sample>)
    requires !b.pressed && !b.longPressed && |b.pressTimes| == 1 && |b.releaseTimes| == 1
    requires b.pressTimes[0] < b.releaseTimes[0] <= t && t - b.pressTimes[0] < b.doubleClickTimeout
    ensures Run(b, [At(b, t, false)] + rest, true) == Then(LegacyOutcome(b, []), Run(b, rest, true))
  {
    var s1 := Sense(b, t, At(b, t, false).level, true);
    assert s1 == LegacyStage(b, false, []);
    var s2 := CheckLongPress(s1, t, true);
    assert s2 == s1;
    var s3 := CheckDoubleClick(s2, t, true);
    assert s3 == s2;
    assert CheckClick(s3, t, true) == s3;
    PollThen(b, At(b, t, false), rest, LegacyOutcome(b, []), true);
  }

  /** ... and once it has, the click is raised and the records consumed. */
  lemma ClickDue(b: LegacyButton, t: Time, rest: seq<Sample>)
    requires !b.pressed && !b.longPressed && |b.pressTimes| == 1 && |b.releaseTimes| == 1
    requires b.pressTimes[0] < b.releaseTimes[0] <= t && t - b.pressTimes[0] >= b.doubleClickTimeout
    ensures Run(b, [At(b, t, false)] + rest, true) == Then(LegacyOutcome(Rest(b), [Click]), Run(Rest(b), rest, true))
  {
    var s1 := Sense(b, t, At(b, t, false).level, true);
    assert s1 == LegacyStage(b, false, []);
    var s2 := CheckLongPress(s1, t, true);
    assert s2 == s1;
    var s3 := CheckDoubleClick(s2, t, true);
    assert s3 == s2;
    assert CheckClick(s3, t, true) == LegacyStage(Rest(b), false, [Click]);
    PollThen(b, At(b, t, false), rest, LegacyOutcome(Rest(b), [Click]), true);
  }

  /** A second press after a click still waiting: recorded, and only the press
      is raised. */
  lemma SecondPress(b: LegacyButton, t: Time, rest: seq<Sample>)
    requires !b.pressed && !b.longPressed && |b.pressTimes| == 1 && |b.releaseTimes| == 1
    requires b.releaseTimes[0] <= t && b.longPressTimeout >= 0
    ensures var b' := b.(pressed := true, pressTimes := b.pressTimes + [t]);
      Run(b, [At(b, t, true)] + rest, true) == Then(LegacyOutcome(b', [Press]), Run(b', rest, true))
  {
    var b' := b.(pressed := true, pressTimes := b.pressTimes + [t]);
    var s1 := Sense(b, t, At(b, t, true).level, true);
    assert s1 == LegacyStage(b', false, [Press]);
    var s2 := CheckLongPress(s1, t, true);
    assert s2 == s1;
    var s3 := CheckDoubleClick(s2, t, true);
    assert s3 == s2;
    assert CheckClick(s3, t, true) == s3;
    PollThen(b, At(b, t, true), rest, LegacyOutcome(b', [Press]), true);
  }

  /** The second release soon enough after the first press is a double click,
      which consumes both clicks. */
  lemma SecondReleaseDoubleClicks(b: LegacyButton, t: Time, rest: seq<Sample>)
    requires b.pressed && |b.pressTimes| == 2 && |b.releaseTimes| == 1
    requires b.pressTimes[1] <= t && t - b.pressTimes[0] < b.doubleClickTimeout
    ensures Run(b, [At(b, t, false)] + rest, true) == Then(LegacyOutcome(Rest(b), [Release, DoubleClick]), Run(Rest(b), rest, true))
  {
    var s1 := Sense(b, t, At(b, t, false).level, true);
    assert s1 == LegacyStage(b.(pressed := false, longPressed := false, releaseTimes := b.releaseTimes + [t]), true, [Release]);
    var s2 := CheckLongPress(s1, t, true);
    assert s2 == s1;
    var s3 := CheckDoubleClick(s2, t, true);
    assert s3 == LegacyStage(Rest(b), true, [Release, DoubleClick]);
    assert CheckClick(s3, t, true) == s3;
    PollThen(b, At(b, t, false), rest, LegacyOutcome(Rest(b), [Release, DoubleClick]), true);
  }

  /** Held past the long-press timeout: the long press is raised. */
  lemma LongPressFires(b: LegacyButton, t: Time, rest: seq<Sample>)
    requires b.pressed && !b.longPressed && |b.pressTimes| == 1 && b.releaseTimes == []
    requires t - b.pressTimes[0] > b.longPressTimeout
    ensures var b' := b.(longPressed := true);
      Run(b, [At(b, t, true)] + rest, true) == Then(LegacyOutcome(b', [LongPress]), Run(b', rest, true))
  {
    var s1 := Sense(b, t, At(b, t, true).level, true);
    assert s1 == LegacyStage(b, true, []);
    var s2 := CheckLongPress(s1, t, true);
    assert s2 == LegacyStage(b.(longPressed := true), true, [LongPress]);
    var s3 := CheckDoubleClick(s2, t, true);
    assert s3 == s2;
    assert CheckClick(s3, t, true) == s3;
    PollThen(b, At(b, t, true), rest, LegacyOutcome(b.(longPressed := true), [LongPress]), true);
  }

  /** The run of no sample. */
  lemma RunNothing(b: LegacyButton, raiseEvents: bool)
    ensures Run(b, [], raiseEvents) == Success(LegacyOutcome(b, []))
  {
  }

  /** The second click of a double click, a single click of press `t1` and
      release `t2` waiting. */
  lemma SecondClickDoubles(b: LegacyButton, t1: Time, t2: Time, t3: Time, t4: Time)
    requires !b.pressed && !b.longPressed && b.pressTimes == [] && b.releaseTimes == []
    requires b.longPressTimeout >= 0
    requires t2 <= t3 <= t4 && t4 - t1 < b.doubleClickTimeout
    ensures Run(b.(pressTimes := [t1], releaseTimes := [t2]), [At(b, t3, true), At(b, t4, false)], true)
      == Success(LegacyOutcome(b, [Press, Release, DoubleClick]))
  {
    var b2 := b.(pressTimes := [t1], releaseTimes := [t2]);
    var b3 := b2.(pressed := true, pressTimes := [t1, t3]);
    assert Rest(b3) == b;
    RunNothing(b, true);
    SecondReleaseDoubleClicks(b3, t4, []);
    assert [At(b, t4, false)] + [] == [At(b, t4, false)];
    assert [Release, DoubleClick] + [] == [Release, DoubleClick];
    SecondPress(b2, t3, [At(b, t4, false)]);
    assert [Press] + [Release, DoubleClick] == [Press, Release, DoubleClick];
  }

  /** Two quick clicks from rest: the second release brings the double click,
      and neither click is raised on its own. */
  lemma QuickDoubleClick(b: LegacyButton, t1: Time, t2: Time, t3: Time, t4: Time)
    requires !b.pressed && !b.longPressed && b.pressTimes == [] && b.releaseTimes == []
    requires b.longPressTimeout >= 0
    requires t1 <= t2 <= t3 <= t4 && t4 - t1 < b.doubleClickTimeout
    ensures Run(b, [At(b, t1, true), At(b, t2, false), At(b, t3, true), At(b, t4, false)], true)
      == Success(LegacyOutcome(b, [Press, Release, Press, Release, DoubleClick]))
  {
    var b1 := b.(pressed := true, pressTimes := [t1]);
    assert b1.(pressed := false, longPressed := false, releaseTimes := [t2]) == b.(pressTimes := [t1], releaseTimes := [t2]);
    SecondClickDoubles(b, t1, t2, t3, t4);
    EarlyReleaseOfOnePress(b1, t2, [At(b, t3, true), At(b, t4, false)]);
    assert [Release] + [Press, Release, DoubleClick] == [Release, Press, Release, DoubleClick];
    PressFromRest(b, t1, [At(b, t2, false), At(b, t3, true), At(b, t4, false)]);
    assert [Press] + [Release, Press, Release, DoubleClick] == [Press, Release, Press, Release, DoubleClick];
  }

  /** A release that comes at least the double-click timeout after its press
      is clicked on the spot. */
  lemma LateReleaseClicks(b: LegacyButton, t1: Time, t2: Time)
    requires !b.pressed && !b.longPressed && b.pressTimes == [] && b.releaseTimes == []
    requires b.longPressTimeout >= 0
    requires t1 < t2 && t2 - t1 >= b.doubleClickTimeout
    ensures Run(b, [At(b, t1, true), At(b, t2, false)], true) == Success(LegacyOutcome(b, [Press, Release, Click]))
  {
    var b1 := b.(pressed := true, pressTimes := [t1]);
    assert Rest(b1) == b;
    RunNothing(b, true);
    LateReleaseOfOnePress(b1, t2, []);
    assert [At(b, t2, false)] + [] == [At(b, t2, false)];
    assert [Release, Click] + [] == [Release, Click];
    PressFromRest(b, t1, [At(b, t2, false)]);
    assert [Press] + [Release, Click] == [Press, Release, Click];
  }

  /** A click: pressed, released soon after, and the click raised by the first
      poll at least the double-click timeout after the press. */
  lemma SlowClick(b: LegacyButton, t1: Time, t2: Time, t3: Time, t4: Time)
    requires !b.pressed && !b.longPressed && b.pressTimes == [] && b.releaseTimes == []
    requires b.longPressTimeout >= 0
    requires t1 < t2 <= t3 <= t4 && t3 - t1 < b.doubleClickTimeout <= t4 - t1
    ensures Run(b, [At(b, t1, true), At(b, t2, false), At(b, t3, false), At(b, t4, false)], true)
      == Success(LegacyOutcome(b, [Press, Release, Click]))
  {
    var b1 := b.(pressed := true, pressTimes := [t1]);
    var b2 := b1.(pressed := false, releaseTimes := [t2]);
    assert Rest(b2) == b;
    RunNothing(b, true);
    ClickDue(b2, t4, []);
    assert [At(b, t4, false)] + [] == [At(b, t4, false)];
    assert [Click] + [] == [Click];
    ClickNotYetDue(b2, t3, [At(b, t4, false)]);
    var none: seq<Event> := [];
    assert none + [Click] == [Click];
    EarlyReleaseOfOnePress(b1, t2, [At(b, t3, false), At(b, t4, false)]);
    assert [Release] + [Click] == [Release, Click];
    PressFromRest(b, t1, [At(b, t2, false), At(b, t3, false), At(b, t4, false)]);
    assert [Press] + [Release, Click] == [Press, Release, Click];
  }

  /** The first test of the older controller's events (tests/test_controller.py,
      lines 66-108), with polls at chosen instants: two clicks in a row, each
      raised once the double-click timeout of 400 ms has passed since its
      press, never with the release. */
  lemma PressReleaseClickTest()
    ensures var b := NewButton(2, PressedWhenOn);
      Run(b, [At(b, 1000, true), At(b, 1020, false), At(b, 1390, false), At(b, 1420, false)]
           + [At(b, 1440, true), At(b, 1460, false), At(b, 1800, false), At(b, 1860, false)], true)
      == Success(LegacyOutcome(b, [Press, Release, Click, Press, Release, Click]))
  {
    var b := NewButton(2, PressedWhenOn);
    var first := [At(b, 1000, true), At(b, 1020, false), At(b, 1390, false), At(b, 1420, false)];
    var second := [At(b, 1440, true), At(b, 1460, false), At(b, 1800, false), At(b, 1860, false)];
    SlowClick(b, 1000, 1020, 1390, 1420);
    SlowClick(b, 1440, 1460, 1800, 1860);
    RunConcat(b, first, second, true);
    assert [Press, Release, Click] + [Press, Release, Click] == [Press, Release, Click, Press, Release, Click];
  }

  /** The last two polls of a long press: the long press fires while held,
      and the release brings the click at once, the double-click timeout being
      long past. */
  lemma LongPressFiresThenClick(b: LegacyButton, tLong: Time, tRelease: Time)
    requires b.pressed && !b.longPressed && |b.pressTimes| == 1 && b.releaseTimes == []
    requires b.longPressTimeout >= 0 && tLong - b.pressTimes[0] > b.longPressTimeout
    requires tLong < tRelease && tRelease - b.pressTimes[0] >= b.doubleClickTimeout
    ensures Run(b, [At(b, tLong, true), At(b, tRelease, false)], true)
      == Success(LegacyOutcome(Rest(b), [LongPress, Release, Click]))
  {
    var b2 := b.(longPressed := true);
    assert Rest(b2) == Rest(b);
    RunNothing(Rest(b), true);
    LateReleaseOfOnePress(b2, tRelease, []);
    assert [At(b, tRelease, false)] + [] == [At(b, tRelease, false)];
    assert [Release, Click] + [] == [Release, Click];
    LongPressFires(b, tLong, [At(b, tRelease, false)]);
    assert [LongPress] + [Release, Click] == [LongPress, Release, Click];
  }

  /** Held past the long-press timeout, polled in between, then released: the
      long press is raised once while held, then the release and the click. */
  lemma LongPressThenClick(b: LegacyButton, t: Time, polls: seq<Sample>, tLong: Time, tRelease: Time)
    requires !b.pressed && !b.longPressed && b.pressTimes == [] && b.releaseTimes == []
    requires b.longPressTimeout >= 0
    requires forall i :: 0 <= i < |polls| ==> LevelMeansPressed(b.inputType, polls[i].level)
    requires forall i :: 0 <= i < |polls| ==> polls[i].now - t <= b.longPressTimeout
    requires tLong - t > b.longPressTimeout
    requires tLong < tRelease && tRelease - t >= b.doubleClickTimeout
    ensures Run(b, [At(b, t, true)] + polls + [At(b, tLong, true), At(b, tRelease, false)], true)
      == Success(LegacyOutcome(b, [Press, LongPress, Release, Click]))
  {
    var b1 := b.(pressed := true, pressTimes := [t]);
    var last := [At(b, tLong, true), At(b, tRelease, false)];
    LongPressFiresThenClick(b1, tLong, tRelease);
    assert Rest(b1) == b;
    HeldQuietly(b1, polls, true);
    RunConcat(b1, polls, last, true);
    var none: seq<Event> := [];
    assert none + [LongPress, Release, Click] == [LongPress, Release, Click];
    PressFromRest(b, t, polls + last);
    assert [At(b, t, true)] + polls + last == [At(b, t, true)] + (polls + last);
    assert [Press] + [LongPress, Release, Click] == [Press, LongPress, Release, Click];
  }

  /** The second test of the older controller's events (tests/test_controller.py,
      lines 110-152) with timeouts of 400 ms (long press) and 300 ms (double
      click) and a poll every 10 ms: the press, the long press after 400 ms,
      the click with the release, then four quick polls that make a double
      click and no click. */
  lemma LongPressDoubleClickTest()
    ensures var b := NewButton(2, PressedWhenOn).(longPressTimeout := 400, doubleClickTimeout := 300);
      Run(b, [At(b, 1000, true)] + HeldPolls(b, 1010, 40, 10) + [At(b, 1410, true), At(b, 1420, false)]
           + [At(b, 1440, true), At(b, 1450, false), At(b, 1460, true), At(b, 1470, false)], true)
      == Success(LegacyOutcome(b, [Press, LongPress, Release, Click, Press, Release, Press, Release, DoubleClick]))
  {
    var b := NewButton(2, PressedWhenOn).(longPressTimeout := 400, doubleClickTimeout := 300);
    var first := [At(b, 1000, true)] + HeldPolls(b, 1010, 40, 10) + [At(b, 1410, true), At(b, 1420, false)];
    var second := [At(b, 1440, true), At(b, 1450, false), At(b, 1460, true), At(b, 1470, false)];
    var polls := HeldPolls(b, 1010, 40, 10);
    forall i | 0 <= i < |polls|
      ensures LevelMeansPressed(b.inputType, polls[i].level) && polls[i].now - 1000 <= 400
    {
      assert polls[i] == At(b, 1010 + i * 10, true);
    }
    LongPressThenClick(b, 1000, polls, 1410, 1420);
    QuickDoubleClick(b, 1440, 1450, 1460, 1470);
    RunConcat(b, first, second, true);
    assert [Press, LongPress, Release, Click] + [Press, Release, Press, Release, DoubleClick]
      == [Press, LongPress, Release, Click, Press, Release, Press, Release, DoubleClick];
  }
}

=== FILE: lifecycle.dfy ===
/** The life of a controller: ready, running, stopping, stopped. Both
    controllers share the four statuses; they differ in how a stop ends. */
module Lifecycle {
  import opened Wrappers

  datatype Status = Ready | Running | Stopping | Stopped

  /** `run` is refused unless the controller is ready; `stop` is refused while
      it is ready or already stopping. Python raises a plain Exception for both. */
  datatype LifecycleError = CannotStart(status: Status) | CannotStop(status: Status)

  /** Statuses only move forward. */
  function Rank(s: Status): nat
  {
    match s
    case Ready => 0
    case Running => 1
    case Stopping => 2
    case Stopped => 3
  }

  /** `run`: only a ready controller starts, and it starts running. */
  function Start(s: Status): (r: Result<Status, LifecycleError>)
    ensures r.Success? <==> s == Ready
    ensures r.Success? ==> r.value == Running
    ensures r.Failure? ==> r.error == CannotStart(s)
  {
    if s != Ready then Failure(CannotStart(s)) else Success(Running)
  }

  /** `stop` of the current controller: a stopped controller is left alone, a
      running one starts stopping, any other status is an error. Stopping for
      good happens later, when the event loop has ended (`LoopEnded`). */
  function Stop(s: Status): (r: Result<Status, LifecycleError>)
    ensures r.Success? <==> s == Running || s == Stopped
    ensures r.Success? ==> r.value == (if s == Stopped then Stopped else Stopping)
    ensures r.Failure? ==> r.error == CannotStop(s)
  {
    if s == Stopped then Success(Stopped)
    else if s != Running then Failure(CannotStop(s))
    else Success(Stopping)
  }

  /** The event loop of the current controller returns only once `stop` has
      asked it to, and `run` then marks the controller stopped. */
  predicate LoopCanEnd(s: Status)
  {
    s == Stopping
  }

  function LoopEnded(s: Status): (r: Status)
    requires LoopCanEnd(s)
    ensures Rank(r) == Rank(s) + 1
  {
    Stopped
  }

  /** `stop_async` of the older controller: the same checks as `stop`, then it
      waits for the handlers and the event loop itself and ends stopped. The
      result lists the statuses it goes through. */
  function StopAsync(s: Status): (r: Result<seq<Status>, LifecycleError>)
    ensures r.Success? <==> Stop(s).Success?
    ensures r.Success? ==> (if |r.value| == 0 then s else r.value[|r.value| - 1]) == Stopped
    ensures r.Success? && s == Running ==> |r.value| > 0 && r.value[0] == Stopping
    ensures r.Failure? ==> r.error == CannotStop(s)
  {
    if s == Stopped then Success([])
    else if s != Running then Failure(CannotStop(s))
    else Success([Stopping, Stopped])
  }

  /** What can happen to a controller from outside: a call to `run`, a call to
      `stop`, or the end of its event loop. */
  datatype Action = CallRun | CallStop | EventLoopEnds

  /** One action of the current controller. A refused call raises and leaves
      the status as it was, and the event loop cannot end before a stop. */
  function Step(s: Status, a: Action): (r: Status)
    ensures Rank(s) <= Rank(r)
  {
    match a
    case CallRun => (match Start(s) case Success(t) => t case Failure(_) => s)
    case CallStop => (match Stop(s) case Success(t) => t case Failure(_) => s)
    case EventLoopEnds => if LoopCanEnd(s) then LoopEnded(s) else s
  }

  /** The status after the actions, one after the other. */
  function Perform(s: Status, actions: seq<Action>): Status
    decreases |actions|
  {
    if |actions| == 0 then s else Perform(Step(s, actions[0]), actions[1..])
  }

  /** Number of calls to `run` that succeed along the actions. */
  function Starts(s: Status, actions: seq<Action>): nat
    decreases |actions|
  {
    if |actions| == 0 then 0
    else (if actions[0] == CallRun && Start(s).Success? then 1 else 0) + Starts(Step(s, actions[0]), actions[1..])
  }

  /** The status never goes back, whatever happens. */
  lemma {:induction false} PerformNeverGoesBack(s: Status, actions: seq<Action>)
    ensures Rank(s) <= Rank(Perform(s, actions))
    decreases |actions|
  {
    if |actions| > 0 {
      PerformNeverGoesBack(Step(s, actions[0]), actions[1..]);
    }
  }

  /** A controller runs at most once, and not at all unless it was ready:
      once started it can never be started again. */
  lemma {:induction false} RunsAtMostOnce(s: Status, actions: seq<Action>)
    ensures Starts(s, actions) <= (if s == Ready then 1 else 0)
    decreases |actions|
  {
    if |actions| > 0 {
      var t := Step(s, actions[0]);
      RunsAtMostOnce(t, actions[1..]);
      if s == Ready && actions[0] == CallRun {
        assert t == Running;
      }
    }
  }

  /** A stopped controller stays stopped: it cannot be restarted. */
  lemma {:induction false} StoppedIsFinal(actions: seq<Action>)
    ensures Perform(Stopped, actions) == Stopped
    decreases |actions|
  {
    if |actions| > 0 {
      assert Step(Stopped, actions[0]) == Stopped;
      StoppedIsFinal(actions[1..]);
    }
  }

  /** Stopped is reached only through stopping: a single step reaches it from
      no other status. */
  lemma StoppedOnlyAfterStopping(s: Status, a: Action)
    ensures Step(s, a) == Stopped ==> s == Stopping || s == Stopped
  {
  }

  /** A controller that has been asked to stop is never running again. */
  lemma {:induction false} NeverRunsAgain(s: Status, actions: seq<Action>)
    requires Rank(s) >= Rank(Stopping)
    ensures Perform(s, actions) != Running && Perform(s, actions) != Ready
  {
    PerformNeverGoesBack(s, actions);
  }
}

=== FILE: reference.dfy ===
/** An independent, case-by-case description of what one update of a
    consistent button does, field by field, and the proof that `Buttons.Update`
    agrees with it. */
module Reference {
  import opened Events
  import opened Buttons
  import Schedule

  /** What an update should produce: the events (with an event loop), the new
      level and long-pressed flag, the recorded presses and releases, and the
      wake-up time. */
  datatype Expected = Expected(
    kinds: seq<Event>,
    pressed: bool,
    longPressed: bool,
    pressTimes: seq<Time>,
    releaseTimes: seq<Time>,
    wakeUp: Time)

  /** The four situations an update can find: press edge, held, release edge,
      idle. In each, a wake-up that has passed is first forgotten; a long press
      still to come asks for a wake-up when the press will have lasted the
      long-press timeout, and a click held back asks for one when its press
      will be the double-click timeout old. The earlier wake-up wins. */
  function Expect(b: Button, now: Time, level: bool): Expected
    requires Consistent(b)
  {
    var pressed := LevelMeansPressed(b.inputType, level);
    var kept := if b.scheduledUpdateTime < now then Schedule.Unscheduled else b.scheduledUpdateTime;
    if pressed && !b.pressed then
      // Press edge: the press is recorded; it is long only with a negative timeout.
      var long := 0 > b.longPressTimeout;
      Expected([Press] + (if long then [LongPress] else []), true, long, b.pressTimes + [now], b.releaseTimes,
               if long then kept else Schedule.Next(kept, now + b.longPressTimeout))
    else if pressed then
      // Held: the long press is raised once, when the press has lasted long enough.
      var last := Last(b.pressTimes);
      var long := !b.longPressed && now - last > b.longPressTimeout;
      Expected(if long then [LongPress] else [], true, b.longPressed || long, b.pressTimes, b.releaseTimes,
               if !b.longPressed && !long then Schedule.Next(kept, last + b.longPressTimeout) else kept)
    else if b.pressed then
      // Release edge: a double click if the press before last is recent, else a
      // click if the last press is old enough and strictly before now, else
      // the click is held back if the last press is strictly before now.
      var last := Last(b.pressTimes);
      var double := |b.pressTimes| >= 2 && now - b.pressTimes[|b.pressTimes| - 2] < b.doubleClickTimeout;
      var click := now > last && now - last >= b.doubleClickTimeout;
      if double then Expected([Release, DoubleClick], false, false, [], [], kept)
      else if click then Expected([Release, Click], false, false, [], [], kept)
      else Expected([Release], false, false, b.pressTimes, b.releaseTimes + [now],
                    if now > last then Schedule.Next(kept, last + b.doubleClickTimeout) else kept)
    else
      // Idle: a pending click is raised once the double-click timeout has
      // passed, and asks for a wake-up until then.
      var pending := ClickPending(b);
      var click := pending && now - Last(b.pressTimes) >= b.doubleClickTimeout;
      if click then Expected([Click], false, false, [], [], kept)
      else Expected([], false, false, b.pressTimes, b.releaseTimes,
                    if pending then Schedule.Next(kept, Last(b.pressTimes) + b.doubleClickTimeout) else kept)
  }

  /** The outcome of updating `b` agrees with the expectation `e`: the same
      events, and `b` with exactly the expected fields changed. */
  predicate Agrees(o: Outcome, b: Button, e: Expected, raiseEvents: bool)
  {
    && o.events == Raised(e.kinds, raiseEvents)
    && o.button == b.(pressed := e.pressed, longPressed := e.longPressed, pressTimes := e.pressTimes,
                      releaseTimes := e.releaseTimes, scheduledUpdateTime := e.wakeUp)
  }

  lemma PressEdgeMatches(b: Button, now: Time, level: bool, raiseEvents: bool)
    requires Consistent(b) && RecordedBy(b, now)
    requires LevelMeansPressed(b.inputType, level) && !b.pressed
    ensures Update(b, now, level, raiseEvents).Success?
    ensures Agrees(Update(b, now, level, raiseEvents).value, b, Expect(b, now, level), raiseEvents)
  {
    SenseKeepsConsistency(b, now, level, raiseEvents);
    var s1, s2, s3, s4 := UpdateStages(b, now, level, raiseEvents);
    PressedMeansNoClickPending(s3.button);
  }

  lemma HeldMatches(b: Button, now: Time, level: bool, raiseEvents: bool)
    requires Consistent(b) && RecordedBy(b, now)
    requires LevelMeansPressed(b.inputType, level) && b.pressed
    ensures Update(b, now, level, raiseEvents).Success?
    ensures Agrees(Update(b, now, level, raiseEvents).value, b, Expect(b, now, level), raiseEvents)
  {
    SenseKeepsConsistency(b, now, level, raiseEvents);
    var s1, s2, s3, s4 := UpdateStages(b, now, level, raiseEvents);
    PressedMeansNoClickPending(s3.button);
  }

  lemma ReleaseEdgeMatches(b: Button, now: Time, level: bool, raiseEvents: bool)
    requires Consistent(b) && RecordedBy(b, now)
    requires !LevelMeansPressed(b.inputType, level) && b.pressed
    ensures Update(b, now, level, raiseEvents).Success?
    ensures Agrees(Update(b, now, level, raiseEvents).value, b, Expect(b, now, level), raiseEvents)
  {
    var s1, s2, s3, s4 := UpdateStages(b, now, level, raiseEvents);
    assert s2 == s1;
    if DoubleClickDue(s2, now) {
      assert !ClickPending(s3.button) && s4 == s3;
    } else {
      assert s3 == s2;
      assert Last(s3.button.releaseTimes) == now;
    }
  }

  lemma IdleMatches(b: Button, now: Time, level: bool, raiseEvents: bool)
    requires Consistent(b) && RecordedBy(b, now)
    requires !LevelMeansPressed(b.inputType, level) && !b.pressed
    ensures Update(b, now, level, raiseEvents).Success?
    ensures Agrees(Update(b, now, level, raiseEvents).value, b, Expect(b, now, level), raiseEvents)
  {
    var s1, s2, s3, s4 := UpdateStages(b, now, level, raiseEvents);
    var kept := if b.scheduledUpdateTime < now then Schedule.Unscheduled else b.scheduledUpdateTime;
    assert s1 == Stage(b.(scheduledUpdateTime := kept), false, []);
    assert s3 == s2 == s1;
    if ClickPending(b) {
      var last := Last(b.pressTimes);
      if now - last >= b.doubleClickTimeout {
        assert s4 == Stage(s3.button.(pressTimes := [], releaseTimes := []), false, Emit([], Click, raiseEvents));
      } else {
        assert s4.button == s3.button.(scheduledUpdateTime := Schedule.Next(kept, last + b.doubleClickTimeout));
      }
    } else {
      assert s4 == s3;
    }
  }

  /** `Buttons.Update` on a consistent button does exactly what `Expect` describes. */
  lemma UpdateMatchesExpect(b: Button, now: Time, level: bool, raiseEvents: bool)
    requires Consistent(b) && RecordedBy(b, now)
    ensures Update(b, now, level, raiseEvents).Success?
    ensures Agrees(Update(b, now, level, raiseEvents).value, b, Expect(b, now, level), raiseEvents)
  {
    var pressed := LevelMeansPressed(b.inputType, level);
    if pressed && !b.pressed {
      PressEdgeMatches(b, now, level, raiseEvents);
    } else if pressed {
      HeldMatches(b, now, level, raiseEvents);
    } else if b.pressed {
      ReleaseEdgeMatches(b, now, level, raiseEvents);
    } else {
      IdleMatches(b, now, level, raiseEvents);
    }
  }
}

=== FILE: schedule.dfy ===
/** The "next wake-up time" of a button: 0 means that nothing is scheduled,
    any other value is the time at which the button must be updated again. */
module Schedule {

  type Time = int

  /** The scheduled time stored in a fresh button: nothing scheduled. */
  const Unscheduled: Time := 0

  /** Scheduling a wake-up at `requested` when `current` is already scheduled
      (`Button._schedule_update`): 0 cancels, otherwise the earliest wake-up wins. */
  function Next(current: Time, requested: Time): (r: Time)
    ensures requested == Unscheduled ==> r == Unscheduled
    ensures requested != Unscheduled && current == Unscheduled ==> r == requested
    ensures requested != Unscheduled && current != Unscheduled ==> r == Min(current, requested)
  {
    if requested == Unscheduled || current == Unscheduled || current > requested then requested else current
  }

  function Min(a: Time, b: Time): Time
  {
    if a <= b then a else b
  }

  /** `r` is the earliest non-zero time of `times`, or 0 when every time is 0. */
  predicate IsEarliest(r: Time, times: seq<Time>)
  {
    && (r == Unscheduled <==> forall i :: 0 <= i < |times| ==> times[i] == Unscheduled)
    && (r != Unscheduled ==> r in times)
    && (forall i :: 0 <= i < |times| && times[i] != Unscheduled ==> r <= times[i])
  }

  /** Scheduling every time of `times` in turn, starting from nothing scheduled. */
  function ScheduleAll(current: Time, times: seq<Time>): Time
    decreases |times|
  {
    if |times| == 0 then current else ScheduleAll(Next(current, times[0]), times[1..])
  }

  /** A non-zero request never moves an existing wake-up later. */
  lemma NextNeverLater(current: Time, requested: Time)
    requires current != Unscheduled && requested != Unscheduled
    ensures Next(current, requested) != Unscheduled
    ensures Next(current, requested) <= current && Next(current, requested) <= requested
    ensures Next(current, requested) == current || Next(current, requested) == requested
  {
  }

  /** Scheduling the same time twice is the same as scheduling it once. */
  lemma NextIdempotent(current: Time, requested: Time)
    ensures Next(Next(current, requested), requested) == Next(current, requested)
  {
  }

  /** Non-zero requests may be scheduled in either order. */
  lemma NextCommutes(current: Time, a: Time, b: Time)
    requires a != Unscheduled && b != Unscheduled
    ensures Next(Next(current, a), b) == Next(Next(current, b), a)
  {
  }

  /** Scheduling a sequence of non-zero requests from nothing keeps the earliest
      of them: the wake-up the scheduled-updates thread sleeps until. */
  lemma {:induction false} ScheduleAllIsEarliest(times: seq<Time>)
    requires forall i :: 0 <= i < |times| ==> times[i] != Unscheduled
    ensures IsEarliest(ScheduleAll(Unscheduled, times), times)
  {
    ScheduleAllFrom(Unscheduled, [], times);
    assert [] + times == times;
  }

  lemma {:induction false} ScheduleAllFrom(current: Time, done: seq<Time>, times: seq<Time>)
    requires forall i :: 0 <= i < |times| ==> times[i] != Unscheduled
    requires forall i :: 0 <= i < |done| ==> done[i] != Unscheduled
    requires IsEarliest(current, done)
    ensures IsEarliest(ScheduleAll(current, times), done + times)
    decreases |times|
  {
    if |times| == 0 {
      assert done + times == done;
    } else {
      var next := Next(current, times[0]);
      var done' := done + [times[0]];
      forall i | 0 <= i < |done'| && done'[i] != Unscheduled
        ensures next <= done'[i]
      {
        if i < |done| {
          assert done'[i] == done[i];
        }
      }
      assert done'[|done|] == times[0];
      assert next != Unscheduled;
      assert IsEarliest(next, done') by {
        if current != Unscheduled {
          assert current in done;
        }
      }
      ScheduleAllFrom(next, done', times[1..]);
      assert done' + times[1..] == done + times;
    }
  }

  /** The wake-up time of the scheduled-updates thread (controller.py, lines 87-89):
      the minimum of the buttons' non-zero scheduled times, or 0 when none is. */
  method NextWakeUp(scheduled: seq<Time>) returns (wakeUp: Time)
    ensures IsEarliest(wakeUp, scheduled)
  {
    wakeUp := Unscheduled;
    var i := 0;
    while i < |scheduled|
      invariant 0 <= i <= |scheduled|
      invariant IsEarliest(wakeUp, scheduled[..i])
    {
      if scheduled[i] != Unscheduled {
        wakeUp := Next(wakeUp, scheduled[i]);
      }
      assert scheduled[..i + 1] == scheduled[..i] + [scheduled[i]];
      i := i + 1;
    }
    assert scheduled[..i] == scheduled;
  }

  /** A button is due when its wake-up is set and already passed (controller.py, line 82). */
  predicate Due(scheduled: Time, now: Time)
  {
    scheduled != Unscheduled && scheduled < now
  }
}

=== FILE: traces.dfy ===
/** Successive updates of one button, as the controller performs them on every
    edge and wake-up, and the properties that span several of them. */
module Traces {
  import opened Wrappers
  import opened Events
  import opened Buttons
  import Reference

  /** One reading of the pin, at the time it was taken. */
  datatype Sample = Sample(now: Time, level: bool)

  /** Feeds the samples to the button in turn; the events are those of all the
      updates, in order. An update that fails stops the run. */
  function Run(b: Button, samples: seq<Sample>, raiseEvents: bool): Result<Outcome, UpdateError>
    decreases |samples|, 1
  {
    if |samples| == 0 then Success(Outcome(b, []))
    else Continue(b, samples[0], samples[1..], raiseEvents)
  }

  /** A run that starts with the update for `first`. This step of the
      recursion keeps one unfolding of `Run` from reaching the update itself,
      so that a proof about runs sees the update only where it asks for it. */
  function Continue(b: Button, first: Sample, rest: seq<Sample>, raiseEvents: bool): Result<Outcome, UpdateError>
    decreases |rest| + 1, 0
  {
    After(b, first, rest, raiseEvents)
  }

  /** The update for `first`, then the run of the rest from where it left the button. */
  function After(b: Button, first: Sample, rest: seq<Sample>, raiseEvents: bool): Result<Outcome, UpdateError>
    decreases |rest| + 1, -1
  {
    match Update(b, first.now, first.level, raiseEvents)
    case Failure(e) => Failure(e)
    case Success(o) => Then(o, Run(o.button, rest, raiseEvents))
  }

  /** Each sample is taken no earlier than the one before it. */
  predicate InTimeOrder(samples: seq<Sample>)
    decreases |samples|
  {
    |samples| <= 1 || (samples[0].now <= samples[1].now && InTimeOrder(samples[1..]))
  }

  /** The samples are taken in time order, none before the button's records. */
  predicate Chronological(b: Button, samples: seq<Sample>)
  {
    && (|samples| > 0 ==> RecordedBy(b, samples[0].now))
    && InTimeOrder(samples)
  }

  /** Every sample reads the pin as pressed. */
  predicate AllPressed(inputType: InputType, samples: seq<Sample>)
  {
    forall i :: 0 <= i < |samples| ==> LevelMeansPressed(inputType, samples[i].level)
  }

  /** Every sample reads the pin as released. */
  predicate AllReleased(inputType: InputType, samples: seq<Sample>)
  {
    forall i :: 0 <= i < |samples| ==> !LevelMeansPressed(inputType, samples[i].level)
  }

  lemma RecordedByLater(b: Button, now: Time, later: Time)
    requires RecordedBy(b, now) && now <= later
    ensures RecordedBy(b, later)
  {
  }

  /** A run whose first update produced `o`. */
  function Then(o: Outcome, rest: Result<Outcome, UpdateError>): Result<Outcome, UpdateError>
  {
    match rest
    case Failure(e) => Failure(e)
    case Success(r) => Success(Outcome(r.button, o.events + r.events))
  }

  /** The first update of a run of a consistent button, and the run of the
      remaining samples. */
  lemma RunStep(b: Button, samples: seq<Sample>, raiseEvents: bool) returns (o: Outcome)
    requires |samples| > 0
    requires Consistent(b) && Chronological(b, samples)
    ensures Update(b, samples[0].now, samples[0].level, raiseEvents) == Success(o)
    ensures Consistent(o.button) && SameSettings(o.button, b)
    ensures Chronological(o.button, samples[1..])
    ensures Run(b, samples, raiseEvents) == Then(o, Run(o.button, samples[1..], raiseEvents))
  {
    var s := samples[0];
    UpdatePreservesConsistency(b, s.now, s.level, raiseEvents);
    o := Update(b, s.now, s.level, raiseEvents).value;
    assert Run(b, samples, raiseEvents) == Continue(b, s, samples[1..], raiseEvents);
    assert Continue(b, s, samples[1..], raiseEvents) == After(b, s, samples[1..], raiseEvents);
    if |samples| > 1 {
      RecordedByLater(o.button, s.now, samples[1].now);
    }
  }

  /** Counting the events of a run that continues after a first update. */
  lemma CountThen(o: Outcome, rest: Result<Outcome, UpdateError>, e: Event)
    requires rest.Success?
    ensures Then(o, rest).Success?
    ensures Count(e, Then(o, rest).value.events) == Count(e, o.events) + Count(e, rest.value.events)
  {
    CountConcat(e, o.events, rest.value.events);
  }

  /** A consistent button fed samples in time order never hits the empty press
      list, and stays consistent. */
  lemma {:induction false} RunPreservesConsistency(b: Button, samples: seq<Sample>, raiseEvents: bool)
    requires Consistent(b) && Chronological(b, samples)
    ensures Run(b, samples, raiseEvents).Success?
    ensures Consistent(Run(b, samples, raiseEvents).value.button)
    decreases |samples|
  {
    if |samples| > 0 {
      var o := RunStep(b, samples, raiseEvents);
      RunPreservesConsistency(o.button, samples[1..], raiseEvents);
    }
  }

  /** One update of a consistent button, read as pressed: it stays pressed, and
      raises the long press at most once, only when it newly becomes long-pressed. */
  lemma HeldStep(b: Button, samples: seq<Sample>) returns (o: Outcome)
    requires |samples| > 0
    requires Consistent(b) && Chronological(b, samples)
    requires LevelMeansPressed(b.inputType, samples[0].level)
    ensures Run(b, samples, true) == Then(o, Run(o.button, samples[1..], true))
    ensures Consistent(o.button) && Chronological(o.button, samples[1..]) && o.button.inputType == b.inputType
    ensures o.button.pressed
    ensures Count(LongPress, o.events) <= 1
    ensures Count(LongPress, o.events) == 1 ==> o.button.longPressed && !b.longPressed
    ensures b.pressed && b.longPressed ==> o.button.longPressed
  {
    o := RunStep(b, samples, true);
    UpdateLongPressEvent(b, samples[0].now, samples[0].level, true);
    UpdateEventsOrdered(b, samples[0].now, samples[0].level, true);
    InCheckingOrderCountsOnce(o.events, LongPress);
  }

  /** While the button stays held, the long press is raised at most once, and
      not at all if it was already raised for this press. */
  lemma {:induction false} LongPressOncePerHold(b: Button, samples: seq<Sample>)
    requires Consistent(b) && Chronological(b, samples)
    requires AllPressed(b.inputType, samples)
    ensures Run(b, samples, true).Success?
    ensures Count(LongPress, Run(b, samples, true).value.events) <= 1
    ensures b.pressed && b.longPressed ==> Count(LongPress, Run(b, samples, true).value.events) == 0
    decreases |samples|
  {
    if |samples| > 0 {
      var o := HeldStep(b, samples);
      var rest := samples[1..];
      LongPressOncePerHold(o.button, rest);
      CountThen(o, Run(o.button, rest, true), LongPress);
    }
  }

  /** A button at rest: released, with nothing recorded. */
  predicate AtRest(b: Button)
  {
    !b.pressed && !b.longPressed && b.pressTimes == [] && b.releaseTimes == []
  }

  /** One update of a button at rest, read as released: nothing is raised and
      the button stays at rest. */
  lemma QuietStep(b: Button, samples: seq<Sample>, raiseEvents: bool) returns (o: Outcome)
    requires |samples| > 0
    requires AtRest(b) && InTimeOrder(samples)
    requires !LevelMeansPressed(b.inputType, samples[0].level)
    ensures Run(b, samples, raiseEvents) == Then(o, Run(o.button, samples[1..], raiseEvents))
    ensures AtRest(o.button) && InTimeOrder(samples[1..]) && o.button.inputType == b.inputType
    ensures o.events == []
  {
    o := RunStep(b, samples, raiseEvents);
  }

  /** A button at rest stays silent, and at rest, while it reads released. */
  lemma {:induction false} QuietWhileReleased(b: Button, samples: seq<Sample>, raiseEvents: bool)
    requires AtRest(b) && InTimeOrder(samples)
    requires AllReleased(b.inputType, samples)
    ensures Run(b, samples, raiseEvents).Success?
    ensures Run(b, samples, raiseEvents).value.events == []
    ensures AtRest(Run(b, samples, raiseEvents).value.button)
    decreases |samples|
  {
    if |samples| > 0 {
      var o := QuietStep(b, samples, raiseEvents);
      QuietWhileReleased(o.button, samples[1..], raiseEvents);
    }
  }

  /** One update of a released button holding back a click, read as released:
      the click is raised and the records cleared once the timeout is over, and
      nothing changes before. */
  lemma HeldBackClickStep(b: Button, samples: seq<Sample>) returns (o: Outcome)
    requires |samples| > 0
    requires Consistent(b) && Chronological(b, samples) && !b.pressed && ClickPending(b)
    requires !LevelMeansPressed(b.inputType, samples[0].level)
    ensures Run(b, samples, true) == Then(o, Run(o.button, samples[1..], true))
    ensures Consistent(o.button) && Chronological(o.button, samples[1..]) && !o.button.pressed
    ensures o.button.inputType == b.inputType && o.button.doubleClickTimeout == b.doubleClickTimeout
    ensures samples[0].now - Last(b.pressTimes) >= b.doubleClickTimeout ==>
      o.events == [Click] && AtRest(o.button)
    ensures samples[0].now - Last(b.pressTimes) < b.doubleClickTimeout ==>
      o.events == [] && o.button.pressTimes == b.pressTimes && ClickPending(o.button)
  {
    o := RunStep(b, samples, true);
    Reference.UpdateMatchesExpect(b, samples[0].now, samples[0].level, true);
  }

  /** A click held back after a release is raised once at most while the button
      stays released, and it is raised as soon as a sample comes at or after the
      end of the double-click timeout. */
  lemma {:induction false} HeldBackClickFiresOnce(b: Button, samples: seq<Sample>)
    requires Consistent(b) && Chronological(b, samples) && !b.pressed && ClickPending(b)
    requires AllReleased(b.inputType, samples)
    ensures Run(b, samples, true).Success?
    ensures Count(Click, Run(b, samples, true).value.events) <= 1
    ensures |samples| > 0 && samples[|samples| - 1].now - Last(b.pressTimes) >= b.doubleClickTimeout ==>
      Count(Click, Run(b, samples, true).value.events) == 1
    decreases |samples|
  {
    if |samples| > 0 {
      var o := HeldBackClickStep(b, samples);
      var rest := samples[1..];
      if samples[0].now - Last(b.pressTimes) >= b.doubleClickTimeout {
        QuietWhileReleased(o.button, rest, true);
      } else {
        HeldBackClickFiresOnce(o.button, rest);
        if |samples| > 1 {
          assert rest[|rest| - 1] == samples[|samples| - 1];
        }
      }
      CountThen(o, Run(o.button, rest, true), Click);
    }
  }
}

=== FILE: wakeups.dfy ===
/** Why the scheduled wake-up of a button is enough: every event that waits on
    the clock (a long press still to come, a click held back for a possible
    double click) has a wake-up set no later than the moment it becomes due. */
module WakeUps {
  import Events
  import opened Buttons
  import Schedule
  import Wrappers

  /** A long press is still to come: pressed, not yet long-pressed. */
  predicate LongPressPending(b: Button)
  {
    b.pressed && !b.longPressed && |b.pressTimes| > 0
  }

  /** Scheduling a positive deadline leaves a wake-up set no later than the
      deadline and no later than the wake-up already set. */
  lemma NextBoundedBy(current: Time, deadline: Time)
    requires deadline > 0
    ensures Schedule.Next(current, deadline) != Schedule.Unscheduled
    ensures Schedule.Next(current, deadline) <= deadline
    ensures current != Schedule.Unscheduled ==> Schedule.Next(current, deadline) <= current
  {
  }

  /** The long-press check leaves a wake-up for a long press still to come.
      The deadline it requests is never before `now`, so with a wall-clock
      `now` (always positive) it is never 0, which would read as "no wake-up".
      This holds for every long-press timeout: a timeout below the time held
      makes the long press fire at once instead. */
  lemma LongPressCheckSchedules(s1: Stage, now: Time, raiseEvents: bool)
    requires Consistent(s1.button) && now > 0
    ensures var s2 := CheckLongPress(s1, now, raiseEvents);
      var t1, t2 := s1.button.scheduledUpdateTime, s2.button.scheduledUpdateTime;
      && (LongPressPending(s2.button) ==>
            t2 != Schedule.Unscheduled && now <= Last(s2.button.pressTimes) + s2.button.longPressTimeout
            && t2 <= Last(s2.button.pressTimes) + s2.button.longPressTimeout)
      && (t1 != Schedule.Unscheduled ==> t2 != Schedule.Unscheduled && t2 <= t1)
  {
    var b1 := s1.button;
    if b1.pressed && !b1.longPressed && now - Last(b1.pressTimes) <= b1.longPressTimeout {
      NextBoundedBy(b1.scheduledUpdateTime, Last(b1.pressTimes) + b1.longPressTimeout);
    }
  }

  /** The click check leaves a wake-up for a click still held back. As for the
      long press, the deadline it requests lies after `now`, whatever the
      double-click timeout. */
  lemma ClickCheckSchedules(s3: Stage, now: Time, raiseEvents: bool)
    requires now > 0
    ensures var s4 := CheckClick(s3, now, raiseEvents);
      var t3, t4 := s3.button.scheduledUpdateTime, s4.button.scheduledUpdateTime;
      && (ClickPending(s4.button) ==>
            t4 != Schedule.Unscheduled && now < Last(s4.button.pressTimes) + s4.button.doubleClickTimeout
            && t4 <= Last(s4.button.pressTimes) + s4.button.doubleClickTimeout)
      && (t3 != Schedule.Unscheduled ==> t4 != Schedule.Unscheduled && t4 <= t3)
      && (!ClickPending(s3.button) ==> s4.button == s3.button)
  {
    var b3 := s3.button;
    if ClickPending(b3) && now - Last(b3.pressTimes) < b3.doubleClickTimeout {
      NextBoundedBy(b3.scheduledUpdateTime, Last(b3.pressTimes) + b3.doubleClickTimeout);
    }
  }

  /** After an update, a long press still to come has a wake-up set no later
      than the moment the press will have lasted the long-press timeout. */
  lemma PendingLongPressIsScheduled(b: Button, now: Time, level: bool, raiseEvents: bool)
    requires Consistent(b) && RecordedBy(b, now) && now > 0
    ensures Update(b, now, level, raiseEvents).Success?
    ensures var b' := Update(b, now, level, raiseEvents).value.button;
      LongPressPending(b') ==>
        && b'.scheduledUpdateTime != Schedule.Unscheduled
        && now <= Last(b'.pressTimes) + b'.longPressTimeout
        && b'.scheduledUpdateTime <= Last(b'.pressTimes) + b'.longPressTimeout
  {
    var s1, s2, s3, s4 := UpdateStages(b, now, level, raiseEvents);
    SenseKeepsWakeUp(b, now, level, raiseEvents);
    SenseKeepsConsistency(b, now, level, raiseEvents);
    LongPressCheckSchedules(s1, now, raiseEvents);
    if LongPressPending(s4.button) {
      assert s4 == s3 == s2 by {
        ChecksKeepConsistency(s1, now, raiseEvents);
        PressedMeansNoClickPending(s3.button);
      }
    }
  }

  /** After an update, a click held back for a possible double click has a
      wake-up set no later than the end of the double-click timeout. */
  lemma PendingClickIsScheduled(b: Button, now: Time, level: bool, raiseEvents: bool)
    requires Consistent(b) && RecordedBy(b, now) && now > 0
    ensures Update(b, now, level, raiseEvents).Success?
    ensures var b' := Update(b, now, level, raiseEvents).value.button;
      ClickPending(b') ==>
        && b'.scheduledUpdateTime != Schedule.Unscheduled
        && now < Last(b'.pressTimes) + b'.doubleClickTimeout
        && b'.scheduledUpdateTime <= Last(b'.pressTimes) + b'.doubleClickTimeout
  {
    var s1, s2, s3, s4 := UpdateStages(b, now, level, raiseEvents);
    SenseKeepsWakeUp(b, now, level, raiseEvents);
    SenseKeepsConsistency(b, now, level, raiseEvents);
    LongPressCheckSchedules(s1, now, raiseEvents);
    DoubleClickCheckKeepsWakeUp(s2, now, raiseEvents);
    ClickCheckSchedules(s3, now, raiseEvents);
  }

  /** Sensing the level keeps a wake-up that has not yet passed. */
  lemma SenseKeepsWakeUp(b: Button, now: Time, level: bool, raiseEvents: bool)
    ensures var s1 := Sense(b, now, level, raiseEvents);
      b.scheduledUpdateTime >= now ==> s1.button.scheduledUpdateTime == b.scheduledUpdateTime
  {
  }

  /** The double-click check only clears records; it schedules nothing. */
  lemma DoubleClickCheckKeepsWakeUp(s2: Stage, now: Time, raiseEvents: bool)
    ensures var s3 := CheckDoubleClick(s2, now, raiseEvents);
      s3.button.scheduledUpdateTime == s2.button.scheduledUpdateTime
  {
  }

  /** An update never pushes a wake-up that has not yet passed to a later time. */
  lemma WakeUpNeverPostponed(b: Button, now: Time, level: bool, raiseEvents: bool)
    requires Consistent(b) && RecordedBy(b, now) && now > 0
    requires b.scheduledUpdateTime != Schedule.Unscheduled && b.scheduledUpdateTime >= now
    ensures Update(b, now, level, raiseEvents).Success?
    ensures var t := Update(b, now, level, raiseEvents).value.button.scheduledUpdateTime;
      t != Schedule.Unscheduled && t <= b.scheduledUpdateTime
  {
    var s1, s2, s3, s4 := UpdateStages(b, now, level, raiseEvents);
    SenseKeepsWakeUp(b, now, level, raiseEvents);
    SenseKeepsConsistency(b, now, level, raiseEvents);
    LongPressCheckSchedules(s1, now, raiseEvents);
    DoubleClickCheckKeepsWakeUp(s2, now, raiseEvents);
    ClickCheckSchedules(s3, now, raiseEvents);
  }

  /** Why the lemmas above ask for `now > 0`: at time 0 with a zero long-press
      timeout, a fresh press requests a wake-up at 0, which clears it, so the
      long press still to come has no wake-up. */
  lemma ZeroClockLosesWakeUp()
    ensures var b := NewButton(1, Events.PressedWhenOn).(longPressTimeout := 0);
      var b' := Update(b, 0, true, true).value.button;
      LongPressPending(b') && b'.scheduledUpdateTime == Schedule.Unscheduled
  {
    var b := NewButton(1, Events.PressedWhenOn).(longPressTimeout := 0);
    var s1, s2, s3, s4 := UpdateStages(b, 0, true, true);
    assert s1.button.pressTimes == [0];
  }

  /** Why the update lemmas ask that no record lie after `now`: with the
      default timeouts, a press at 200 and a release at 300, then the clock
      stepping back to 150 and a press, leave a consistent button whose
      release lies in the future. Held at 700, the click check sees that
      release as the latest edge and raises a click, clearing the press
      times of a button still pressed; the update at 800 then reads the
      missing press time and fails. */
  lemma ClockStepBackFails()
    ensures Update(NewButton(7, Events.PressedWhenOn), 200, true, true)
      == Wrappers.Success(Outcome(StepBackPressed(), [Events.Press]))
    ensures Update(StepBackPressed(), 300, false, true)
      == Wrappers.Success(Outcome(StepBackReleased(), [Events.Release]))
    ensures Consistent(StepBackReleased()) && !RecordedBy(StepBackReleased(), 150)
    ensures Update(StepBackReleased(), 150, true, true)
      == Wrappers.Success(Outcome(StepBackPressedEarlier(), [Events.Press]))
    ensures Update(StepBackPressedEarlier(), 700, true, true)
      == Wrappers.Success(Outcome(StepBackEmptied(), [Events.LongPress, Events.Click]))
    ensures StepBackEmptied().pressed && StepBackEmptied().pressTimes == []
    ensures Update(StepBackEmptied(), 800, true, true) == Wrappers.Failure(PressTimesEmpty)
  {
    StepBackPress();
    StepBackRelease();
    StepBackEarlierPress();
    StepBackHeld();
    StepBackHeldAgain();
    ReleaseAfterStepBack();
  }

  // The buttons of `ClockStepBackFails`, one per update.
  function StepBackPressed(): Button
  {
    Button(7, Events.PressedWhenOn, true, false, 500, 500, [200], [], 700)
  }

  function StepBackReleased(): Button
  {
    Button(7, Events.PressedWhenOn, false, false, 500, 500, [200], [300], 700)
  }

  function StepBackPressedEarlier(): Button
  {
    Button(7, Events.PressedWhenOn, true, false, 500, 500, [200, 150], [300], 650)
  }

  function StepBackEmptied(): Button
  {
    Button(7, Events.PressedWhenOn, true, true, 500, 500, [], [], Schedule.Unscheduled)
  }

  lemma StepBackPress()
    ensures Update(NewButton(7, Events.PressedWhenOn), 200, true, true)
      == Wrappers.Success(Outcome(StepBackPressed(), [Events.Press]))
  {
    var s1, s2, s3, s4 := UpdateStages(NewButton(7, Events.PressedWhenOn), 200, true, true);
    assert s1.button.pressTimes == [200] && s1.events == [Events.Press];
  }

  lemma StepBackRelease()
    ensures Update(StepBackPressed(), 300, false, true)
      == Wrappers.Success(Outcome(StepBackReleased(), [Events.Release]))
  {
    var s1, s2, s3, s4 := UpdateStages(StepBackPressed(), 300, false, true);
    assert s1.button == StepBackReleased() && s1.events == [Events.Release];
    assert ClickPending(s3.button);
  }

  lemma StepBackEarlierPress()
    ensures Update(StepBackReleased(), 150, true, true)
      == Wrappers.Success(Outcome(StepBackPressedEarlier(), [Events.Press]))
  {
    var s1, s2, s3, s4 := UpdateStages(StepBackReleased(), 150, true, true);
    assert s1.button.pressTimes == [200, 150] && s1.events == [Events.Press];
    assert ClickPending(s3.button);
  }

  lemma StepBackHeld()
    ensures Update(StepBackPressedEarlier(), 700, true, true)
      == Wrappers.Success(Outcome(StepBackEmptied(), [Events.LongPress, Events.Click]))
  {
    var s1, s2, s3, s4 := UpdateStages(StepBackPressedEarlier(), 700, true, true);
    assert s2.events == [Events.LongPress];
    assert ClickPending(s3.button);
    assert s4.events == [Events.LongPress, Events.Click];
  }

  lemma StepBackHeldAgain()
    ensures Update(StepBackEmptied(), 800, true, true) == Wrappers.Failure(PressTimesEmpty)
  {
  }

  lemma ReleaseAfterStepBack()
    ensures Consistent(StepBackReleased()) && !RecordedBy(StepBackReleased(), 150)
  {
    var b := StepBackReleased();
    assert b.releaseTimes[0] > 150;
    assert Alternate(b.pressTimes, b.releaseTimes) by {
      assert b.pressTimes[0] <= b.releaseTimes[0];
    }
  }
}

=== FILE: wrappers.dfy ===
/** Failure-carrying result types used to model the exceptions the controller raises. */
module Wrappers {

  /** An optional value: the Python `None` / object alternative. */
  datatype Option<+T> = None | Some(value: T)

  /** Either a value or the error the Python code would raise instead of returning. */
  datatype Result<+T, +E> = Success(value: T) | Failure(error: E)
}
